=== FILE: README.md ===
# SoftPyIdentify in Dafny

A model of the identification core of SoftPyIdentify, a library that identifies a
Hammerstein-type model from a recording of a switched input. The model has three parts:

- a static polynomial input nonlinearity;
- a fast second-order mode, with gain, damping and angular frequency;
- a slow first-order mode, with a pole and a zero.

The model covers the combinatorial and index logic around the numerics. Four operations are modelled around abstract numerics (the optimiser, the polynomial fit, the fast curve and the exponential are parameters):

1. **Segmentation** (`split_signal`). The switching loop runs over the instants
   `period_switch, 2*period_switch, ...`. For each instant it looks up five nearest
   samples, where numpy's `argmin` takes the first minimum. It averages the
   pre-switch and steady-state windows and emits one step response with a running id.
2. **Step-response views** (`get_after`, `get_fast`). These are Python slices of
   the response, computed once and then served from a cache.
3. **Static identification** (`identify_static`). It collects the
   `(u_final, y_final)` pairs in response order and evaluates the fitted
   coefficients. Evaluation is highest degree first, by Horner's scheme, as
   `np.poly1d` does.
4. **Fast and slow identification** (`identify_fast`, `identify_slow`). Each
   runs a trial loop that keeps only successful optimisations. It then takes the
   median of each kept parameter. The slow identifier also couples the zero to
   the pole through `z0 = s0 / k_fast`.

Some things are supplied as parameters instead of being modelled:

- The optimiser, `np.polyfit`, the fast response curve and the exponential are
  function-typed parameters.
- The random strategy's draws are a sequence that the caller supplies.
- All arithmetic is on exact reals.
- numpy's NaN is `None` in costs and medians. A NaN median becomes
  `Failure(NoSuccessfulFit)`.

Files:

- `common.dfy`: `Option`, `Result` and `Abs`.
- `py_slice.dfy`: Python slice semantics. Negative bounds count from the end, and out-of-range bounds are clamped.
- `stats.dfy`: `np.mean`, the mean absolute deviation, and `np.median` via insertion sort.
- `poly.dfy`: Horner evaluation against a power-sum reference.
- `step_response.dfy`: the step response and its memoised views.
- `split_signal.dfy`: segmentation.
- `fitting.dfy`: the optimiser's report, the success filter and `dv`.
- `identify_static.dfy`, `identify_fast.dfy`, `identify_slow.dfy`: the three identifiers.

Three behaviours of the code are worth stating on their own:

- **Slow model at the switch.** At a sample taken exactly at the switch, the
  slow model gives `y_initial + k_fast * dv`, not `y_initial`. The slow
  response `z0/s0 - ((z0 - s0)/s0) * exp(0)` is 1 there
  (`IdentifySlow.ModelAtSwitch`).
- **How many responses are cut.** For a positive period, the loop condition
  emits exactly `max(0, ceil(t_final / period_switch) - 2)` responses
  (`SplitSignal.EmitCountExact`). The count is 0 for a non-positive period
  whose loop never starts.
- **Which response the random strategy draws.** The docstring of
  `identify_fast` says the random strategy "random choose step response"
  (`src/softpyidentify/__identify_fast.py` line 34). The code calls
  `randint(low=0, high=Ns-1)`, whose upper end is exclusive, so:
  - the last response is never drawn (`IdentifyFast.RandomIgnoresLastResponse`);
  - with a single response `randint` raises, which the model reports as
    `Failure(EmptyDrawRange)`.

## Model

| member | source | states |
|---|---|---|
| `PySlice.Bound` | src/softpyidentify/__split_signal.py:59-65 | a slice bound is normalised into `[0, len]`: in-range bounds are kept, a negative bound counts back from the end (`i + len`, or 0 if that is still negative), and a bound past the end becomes `len` |
| `PySlice.Slice` | src/softpyidentify/__split_signal.py:59-65 | `a[lo:hi]` holds the elements from the normalised `lo` on, as many as the normalised bounds are apart, and none when they cross |
| `PySlice.SliceFrom` | src/softpyidentify/__step_response.py:81 | `a[lo:]` holds the elements from the normalised `lo` to the end |
| `PySlice.SliceInRange` | src/softpyidentify/__split_signal.py:59-65 | with both bounds inside the array, `a[lo:hi]` is the sub-sequence from `lo` to `hi`, and it is empty when the bounds cross |
| `PySlice.SliceSameLength` | src/softpyidentify/__step_response.py:81 | slicing two equally long arrays with the same bounds gives equally long results |
| `PySlice.SliceIsPrefixOfSliceFrom` | src/softpyidentify/__step_response.py:81-95 | `a[lo:hi]` is always a prefix of `a[lo:]` |
| `Stats.Mean` | src/softpyidentify/__split_signal.py:59-63 | `np.mean` of a non-empty array is the value that, times the number of samples, gives their sum |
| `Stats.MeanBounds` | src/softpyidentify/__split_signal.py:59-63 | a window mean lies in any interval that holds all the window's samples |
| `Stats.SumNonNegative` | src/softpyidentify/__identify_fast.py:22 | a sum of non-negative terms is non-negative, and it is zero exactly when every term is zero |
| `Stats.MeanAbsDev` | src/softpyidentify/__identify_fast.py:22 | the mean absolute deviation exists exactly for non-empty arrays; it is non-negative and zero exactly when the two arrays are equal |
| `Stats.Insert` | src/softpyidentify/__identify_fast.py:100-105 | inserting into a sorted list keeps it sorted and adds exactly the one element |
| `Stats.InsertKeepsHead` | src/softpyidentify/__identify_fast.py:100-105 | a sorted tail whose elements all exceed the head stays sorted behind it |
| `Stats.HeadBelowTail` | src/softpyidentify/__identify_fast.py:100-105 | the head of a sorted list is no larger than any later element |
| `Stats.Sort` | src/softpyidentify/__identify_fast.py:100-105 | the sort returns a sorted permutation of its input |
| `Stats.SortedUnique` | src/softpyidentify/__identify_fast.py:100-105 | two sorted lists with the same multiset of elements are equal |
| `Stats.Middle` | src/softpyidentify/__identify_fast.py:101 | the middle of a sorted sample lies between its first and its last element |
| `Stats.Median` | src/softpyidentify/__identify_fast.py:100-105 | `np.median` is defined exactly for non-empty arrays; an empty array gives NaN |
| `Stats.MedianPermutationInvariant` | src/softpyidentify/__identify_slow.py:37-38 | the median depends only on the multiset of values, not on their order |
| `Stats.MedianBounds` | src/softpyidentify/__identify_fast.py:100-105 | the median lies between the smallest and the largest value |
| `Stats.MedianOfSorted` | src/softpyidentify/__identify_fast.py:101 | for already-sorted data the median is the middle element, or the mean of the two middle ones |
| `Poly.HornerIsPowerSum` | src/softpyidentify/__identify_static.py:33-35 | Horner evaluation, highest coefficient first, equals the power sum `c[0]*x^(n-1) + ... + c[n-1]` |
| `Poly.PolyVal` | src/softpyidentify/__identify_static.py:33-35 | `np.poly1d(c)(x)` is the power sum of the coefficients at `x` |
| `Poly.LeadingZeroIrrelevant` | src/softpyidentify/__identify_static.py:33 | a leading zero coefficient does not change the polynomial's value |
| `StepResponses.ViewsInRange` | src/softpyidentify/__step_response.py:81-95 | given `0 <= i_switch <= i_fast <= len(t)`, the after view is `[i_switch:]` and the fast view is `[i_switch:i_fast]` of each signal, with those lengths |
| `StepResponses.AfterView` | src/softpyidentify/__step_response.py:81 | the after view is no longer than the response, and its three signals line up when the response's do |
| `StepResponses.FastView` | src/softpyidentify/__step_response.py:95 | the fast view is no longer than the after view, and its three signals line up when the response's do |
| `StepResponses.FastViewIsPrefixOfAfterView` | src/softpyidentify/__step_response.py:81-95 | each fast-view signal is a prefix of the matching after-view signal; each holder's three signals are equally long when the response's are |
| `StepResponses.StepResponse.Init` | src/softpyidentify/__step_response.py:56-68 | a new response stores the ten given values unchanged and starts with both view caches empty, so the cache invariant holds |
| `StepResponses.StepResponse.GetAfter` | src/softpyidentify/__step_response.py:70-82 | returns the after view; the first call fills the after cache, and later calls return the cached holder; the fast cache is untouched |
| `StepResponses.StepResponse.GetFast` | src/softpyidentify/__step_response.py:84-96 | returns the fast view; the first call fills the fast cache, and later calls return the cached holder; the after cache is untouched |
| `StepResponses.RepeatedViews` | src/softpyidentify/__step_response.py:70-96 | asking for a view twice gives the same holder, and the fast holder is a prefix of the after holder |
| `SplitSignal.NearestIn` | src/softpyidentify/__split_signal.py:51-56 | the argmin scan over the first `n` samples returns one of those `n` indices; which one is `SplitSignal.NearestInIsFirst` |
| `SplitSignal.NearestInIsFirst` | src/softpyidentify/__split_signal.py:51-56 | the scan over the first `n` samples keeps one whose distance to the target is minimal, and the first such |
| `SplitSignal.Nearest` | src/softpyidentify/__split_signal.py:51-56 | `argmin(abs(t - target))` is a valid sample index; that it is the first closest sample is `SplitSignal.NearestIsFirst` |
| `SplitSignal.NearestIsFirst` | src/softpyidentify/__split_signal.py:51-56 | `argmin(abs(t - target))` is a valid index that is at least as close as every sample and strictly closer than every earlier one |
| `SplitSignal.NearestUnique` | src/softpyidentify/__split_signal.py:51-56 | being the first closest sample characterises the argmin index, in both directions |
| `SplitSignal.NearestMonotone` | src/softpyidentify/__split_signal.py:43-56 | on a non-decreasing time axis a later target never yields an earlier index |
| `SplitSignal.SwitchTimeNext` | src/softpyidentify/__split_signal.py:67 | each iteration advances the switch instant by one period, so the k-th response switches at `(k+1)*period_switch` |
| `SplitSignal.EmitCount` | src/softpyidentify/__split_signal.py:39-41 | no response is emitted when the period is not positive |
| `SplitSignal.EmitCountAt` | src/softpyidentify/__split_signal.py:39-41 | the loop condition holds at the k-th switch exactly when `k` is below the emitted count |
| `SplitSignal.EmitCountExact` | src/softpyidentify/__split_signal.py:39-67 | the emitted responses are exactly those `k` with `(k+1)*P < t_final - P` |
| `SplitSignal.Ceil` | src/softpyidentify/__split_signal.py:39-41 | the least integer not below a real |
| `SplitSignal.ScaledBelow` | src/softpyidentify/__split_signal.py:41 | for `P > 0`, `a*P < x` exactly when `a < x/P` |
| `SplitSignal.StartTime` | src/softpyidentify/__split_signal.py:43 | for `period_switch >= 0`: with a non-negative extension the response starts no later than the switch, and with an extension of at most 1 no earlier than one period before it |
| `SplitSignal.EndTime` | src/softpyidentify/__split_signal.py:44 | for a positive period the response ends after the switch |
| `SplitSignal.FastTime` | src/softpyidentify/__split_signal.py:45 | with `0 <= duration_fast <= period_switch` the fast part ends between the switch and the end of the response |
| `SplitSignal.SteadyTime` | src/softpyidentify/__split_signal.py:46 | for `period_switch >= 0`: with a non-negative window the steady window starts no later than the end of the response, and with a window of at most 1 no earlier than the switch |
| `SplitSignal.IndicesFor` | src/softpyidentify/__split_signal.py:43-56 | the five looked-up indices are valid sample indices |
| `SplitSignal.IndicesOrdered` | src/softpyidentify/__split_signal.py:43-56 | on a non-decreasing time axis: `i_s <= i_switch <= i_e` and `i_final <= i_e`; also `i_switch <= i_fast` when `duration_fast >= 0`, and `i_fast <= i_e` when `duration_fast <= period_switch` |
| `SplitSignal.ResponseFor` | src/softpyidentify/__split_signal.py:59-65 | the response built from five indices has three equally long signals, `i_e - i_s` samples when `i_s < i_e` and none otherwise |
| `SplitSignal.ResponseSignals` | src/softpyidentify/__split_signal.py:65 | the response's `u` and `y` are exactly `u[i_s:i_e]` and `y[i_s:i_e]`, its `t` is `t[i_s:i_e]` minus the switch instant, all three are equally long, the local indices are `i_switch - i_s` and `i_fast - i_s`, and `idx` is the counter |
| `SplitSignal.ResponseLocalIndices` | src/softpyidentify/__split_signal.py:54-65 | indices in time order give local indices with `0 < i_switch <= i_fast <= len(t)` |
| `SplitSignal.ResponseSwitchNearestZero` | src/softpyidentify/__split_signal.py:54-65 | the local switch sample is the first local sample closest to time 0 |
| `SplitSignal.ResponseSteadyMeans` | src/softpyidentify/__split_signal.py:59-63 | `u_initial` and `y_initial` are means over `[i_s, i_switch)`; `u_final` and `y_final` are means over `[i_final, i_e)` |
| `SplitSignal.StepAtWellFormed` | src/softpyidentify/__split_signal.py:43-65 | every emitted response satisfies the step-response invariant, in the form `0 < i_switch <= i_fast <= len(t)`; when the switch sample lies inside the response (`i_switch < i_e`), it is the local sample closest to time 0 |
| `SplitSignal.StepAt` | src/softpyidentify/__split_signal.py:43-69 | the k-th response has three equally long signals of `i_e - i_s` samples, for the indices looked up at the k-th switch instant (none when they cross), and carries `idx == k` |
| `SplitSignal.StepsUpTo` | src/softpyidentify/__split_signal.py:35-69 | after `k` iterations the list holds `k` responses |
| `SplitSignal.StepsUpToNext` | src/softpyidentify/__split_signal.py:65-69 | one more iteration appends exactly the response cut at the next switch instant |
| `SplitSignal.SwitchStep` | src/softpyidentify/__split_signal.py:43-65 | the response built from the indices looked up around the current instant is the next one of the list, and both of its averaging windows hold a sample |
| `SplitSignal.EmitResponse` | src/softpyidentify/__split_signal.py:43-65 | the loop body turns the first `counter` responses into the first `counter + 1` |
| `SplitSignal.SwitchLoop` | src/softpyidentify/__split_signal.py:35-69 | the loop runs exactly the predicted number of times and leaves the first that many responses, in order |
| `SplitSignal.Split` | src/softpyidentify/__split_signal.py:6-71 | `split_signal` emits exactly the count above; for a positive period, index `k` is emitted exactly when `(k+1)*P < t_final - P`; response `k` is the one cut at switch `k`, with `idx == k` |
| `Fitting.Successes` | src/softpyidentify/__identify_fast.py:75-78 | the kept points are no more than the runs, and none are kept when no run succeeds |
| `Fitting.SuccessesSnoc` | src/softpyidentify/__identify_fast.py:75-78 | one more run appends its point exactly when it succeeded |
| `Fitting.SuccessesPrefixNext` | src/softpyidentify/__identify_fast.py:75-78 | the same, for the next run of a prefix |
| `Fitting.SuccessesMembership` | src/softpyidentify/__identify_fast.py:75-78 | a point is kept exactly when some run reached it and succeeded |
| `Fitting.SuccessesAllSucceed` | src/softpyidentify/__identify_slow.py:34-35 | when every run succeeds, every point is kept, in run order |
| `Fitting.Dv` | src/softpyidentify/__identify_fast.py:11 | `dv` is the power-sum polynomial at `u_final` minus that at `u_initial` |
| `IdentifyStatic.SteadyPoints` | src/softpyidentify/__identify_static.py:25-30 | `u_static` and `y_static` have one entry per response, the i-th being that response's `u_final` and `y_final` |
| `IdentifyStatic.Evaluate` | src/softpyidentify/__identify_static.py:33-35 | `y_model[i]` is the fitted polynomial at `u_static[i]` |
| `IdentifyStatic.Identify` | src/softpyidentify/__identify_static.py:3-39 | a model exists exactly when the fit returns coefficients; those are the fit of the returned points; the points are the final values in response order; and `y_model` evaluates the returned coefficients |
| `IdentifyStatic.OnlyFinalValuesMatter` | src/softpyidentify/__identify_static.py:28-30 | responses that agree on `u_final` and `y_final` give the same static model |
| `IdentifyFast.ModelYAtSamples` | src/softpyidentify/__identify_fast.py:10-13 | for `0 <= i_switch <= i_fast <= len(t)` the model has `i_fast - i_switch` values; the i-th is `y_initial` plus the fast curve at `t[i_switch + i]` times the static polynomial's rise `p(u_final) - p(u_initial)` |
| `IdentifyFast.ModelYDependsOnFastTimes` | src/softpyidentify/__identify_fast.py:10-13 | the model depends only on `y_initial`, the two input levels and the fast view's times |
| `IdentifyFast.Cost` | src/softpyidentify/__identify_fast.py:15-23 | the cost is defined exactly when the fast view is non-empty; it is non-negative, and zero exactly when the model hits every fast-view sample |
| `IdentifyFast.Trial` | src/softpyidentify/__identify_fast.py:72-73 | one `minimize` call on the cost of the given response, from the given start, with the given bounds; the optimiser is a parameter, so nothing is promised about its result |
| `IdentifyFast.Trials` | src/softpyidentify/__identify_fast.py:67-92 | 'fixed' runs one optimisation per response, in order, from the same start; 'random' runs `5*Ns`, the i-th on response `draws[i].step` from `draws[i].x0`; any other strategy runs none |
| `IdentifyFast.RandomIgnoresLastResponse` | src/softpyidentify/__identify_fast.py:81-91 | changing the last response leaves every random trial unchanged |
| `IdentifyFast.Aggregate` | src/softpyidentify/__identify_fast.py:99-108 | a triple is returned exactly when all three lists are non-empty, and it is the three lists' medians; otherwise the result is `NoSuccessfulFit` |
| `IdentifyFast.AggregateOrderFree` | src/softpyidentify/__identify_fast.py:100-105 | reordering any of the lists does not change the result |
| `IdentifyFast.AggregateWithinBounds` | src/softpyidentify/__identify_fast.py:100-105 | when every kept fit lies within the bounds, so does each returned median |
| `IdentifyFast.ListsNext` | src/softpyidentify/__identify_fast.py:75-78 | one more trial grows all three lists together, and only on success |
| `IdentifyFast.ListsComeFromSuccessfulTrials` | src/softpyidentify/__identify_fast.py:75-78 | each position of the three lists holds gain, damping and frequency of one and the same successful trial |
| `IdentifyFast.RunFixed` | src/softpyidentify/__identify_fast.py:67-78 | the 'fixed' loop's lists are the projections of the successful fixed trials, in order |
| `IdentifyFast.RunRandom` | src/softpyidentify/__identify_fast.py:79-97 | the 'random' loop's lists are the projections of the successful random trials, in order |
| `IdentifyFast.Identify` | src/softpyidentify/__identify_fast.py:25-108 | the three lists are equally long: at most one entry per response for 'fixed', at most `5*Ns` for 'random', none otherwise; a single response under 'random' fails with `EmptyDrawRange`; the result is the element-wise median of the lists |
| `IdentifySlow.ResponseAtZero` | src/softpyidentify/__identify_slow.py:4-5 | with `exp(0) = 1` and `s0 != 0`, the slow response at `t = 0` is 1 for every zero |
| `IdentifySlow.Response` | src/softpyidentify/__identify_slow.py:4-5 | the slow response is 1 wherever the exponential is 1, and everywhere when the zero equals the pole |
| `IdentifySlow.ModelYAtSamples` | src/softpyidentify/__identify_slow.py:7-10 | for `0 <= i_switch <= len(t)` the model has `len(t) - i_switch` values; the i-th is `y_initial` plus `k_fast` times the slow response at `t[i_switch + i]` times the static polynomial's rise `p(u_final) - p(u_initial)` |
| `IdentifySlow.ModelAtSwitch` | src/softpyidentify/__identify_slow.py:7-10 | at a sample taken at the switch, the model is `y_initial + k_fast * dv` |
| `IdentifySlow.Zero` | src/softpyidentify/__identify_slow.py:14-15 | the zero satisfies `z0 * k_fast == s0` |
| `IdentifySlow.Cost` | src/softpyidentify/__identify_slow.py:12-21 | the cost is defined exactly when `s0 != 0`, `k_fast != 0` and the after view is non-empty; it is non-negative, and zero exactly when the model hits every after-view sample |
| `IdentifySlow.Trial` | src/softpyidentify/__identify_slow.py:31-32 | one `minimize` call on the cost of the given response from `x0`; the optimiser is a parameter, so nothing is promised about its result |
| `IdentifySlow.Aggregate` | src/softpyidentify/__identify_slow.py:37-41 | a result exists exactly when some pole was kept and `k_fast != 0`; the pole is the median and the zero is coupled to it |
| `IdentifySlow.AggregateOrderFree` | src/softpyidentify/__identify_slow.py:37-38 | the result is independent of the order in which poles were appended |
| `IdentifySlow.RunTrials` | src/softpyidentify/__identify_slow.py:27-35 | the loop's list holds the poles of the successful trials, in response order |
| `IdentifySlow.Identify` | src/softpyidentify/__identify_slow.py:23-41 | `s0_list` has at most one entry per response and holds exactly the successful trials' poles; the result is the median pole with `z0` coupled to it |

## Left out

- `scipy.optimize.minimize`: it is an arbitrary function from cost, start and bounds to a point and a success flag. Convergence and optimality are not modelled.
- `np.polyfit`: it is an arbitrary function from points and order to optional coefficients. `None` stands for the cases where numpy raises.
- `__calculate_response_fast`: it is an arbitrary function of time and parameters. It uses cosine, exponential, arctangent and square root, which are floating-point transcendental numerics.
- The exponential in the slow response: it is an arbitrary function. Only `exp(0) = 1` is assumed, as a lemma hypothesis.
- `np.random`: the random strategy's choices are a supplied sequence of draws. Each draw's index lies in `[0, Ns-1)`, and its starting values lie between the bounds.
- IEEE floating point: all arithmetic is on exact reals. This includes the drift of the repeated `t_switch + period_switch`.
- NaN results: NaN is `None` in costs and medians. numpy's warnings are not modelled.
- `IdentifySlow.Zero`: requires `k_fast != 0`, because `s0 / k_fast` has no real value for a zero fast gain; numpy gives `±inf`, or NaN for `s0 == 0`.
- `IdentifySlow.Aggregate`: with `k_fast == 0` it returns `Failure(ZeroFastGain)` and so drops the pole as well. The source still returns the median pole, with `z0 = ±inf`, or `z0 = NaN` when that median is 0. An infinite or NaN zero is not a meaningful identification result, and exact reals have no infinity to carry it.
- `IdentifySlow.Response`: requires `s0 != 0`. The cost returns `None` for `s0 == 0`, where numpy divides by zero.
- `SplitSignal.Split`: requires every emitted response's averaging windows `[i_s, i_switch)` and `[i_final, i_e)` to be non-empty. The source instead stores NaN means with a runtime warning.
- `SplitSignal.Split`: requires the loop to terminate, meaning a positive period or a loop condition that already fails at the first switch. A non-positive period that enters the loop never stops in the source.
- `SplitSignal.Split`: requires a non-empty recording, because `t[-1]` raises on an empty one. It also requires equally long `t`, `u` and `y`. The source does not check this: only `t` enters arithmetic, and `u` and `y` are only sliced. With unequal lengths the source silently returns misaligned responses, or empty windows whose means are NaN.
- `IdentifyFast.Cost`, `IdentifySlow.Cost`: require the response's three signals to be equally long, as `split_signal` builds them. numpy would broadcast or raise on a mismatch.
- `SplitSignal.StepAtWellFormed`: the local indices are ordered only under the stated conditions: a non-decreasing time axis, a positive period, non-negative extension and window, and `0 <= duration_fast <= period_switch`. The source does not check these.
- Aliasing and the view caches: numpy slices are views. A response's `u` and `y` share memory with the recording, and the holders share memory with the response. The identifiers fill each response's caches through `get_fast()` and `get_after()`. The model's identifiers read `FastView` and `AfterView` of an immutable `StepData` instead. No result depends on either, since nothing writes to the shared arrays.
- The returned `poly_static_model` object is represented by its coefficients. It evaluates as `Poly.PolyVal`.
- `src/softpyidentify/__init__.py`: it only re-exports names.
- The plotting and diagnostic use of `get_fast_model_y` and `get_slow_model_y` outside the identifiers: the functions themselves are modelled.

=== FILE: common.dfy ===
/** Small shared vocabulary: optional values, results with an error, absolute value. */
module Common {

  /** `None` stands for a value numpy would report as NaN (mean or median of an empty array). */
  datatype Option<+T> = None | Some(value: T)

  /** The outcome of an identification run: the parameters, or why there are none. */
  datatype Result<+R, +E> = Success(value: R) | Failure(error: E)

  function Abs(x: real): real
  {
    if x < 0.0 then -x else x
  }
}

=== FILE: fitting.dfy ===
/** What the fast and slow identifiers share: the optimiser's report, the
    filter that keeps only successful runs, and the static-gain difference `dv`. */
module Fitting {
  import opened Common
  import Poly
  import opened StepResponses

  /** What `scipy.optimize.minimize` reports back: the point it reached and
      whether it claims success. */
  datatype OptResult<X> = OptResult(x: X, success: bool)

  /** Why an identifier yields no parameters: every list it takes the median
      of was empty (numpy returns NaN), the random strategy had no response to
      draw from (numpy's `randint` raises), or the slow zero divides by a zero
      fast gain (numpy returns an infinity). */
  datatype FitError = NoSuccessfulFit | EmptyDrawRange | ZeroFastGain

  /** The points of the successful runs, in run order: the lists the
      identifiers append to inside `if res.success`. */
  function Successes<X>(runs: seq<OptResult<X>>): (xs: seq<X>)
    ensures |xs| <= |runs|
    ensures (forall i :: 0 <= i < |runs| ==> !runs[i].success) ==> xs == []
  {
    if |runs| == 0 then []
    else
      var last := runs[|runs| - 1];
      Successes(runs[..|runs| - 1]) + (if last.success then [last.x] else [])
  }

  /** One more run extends the kept points exactly when it succeeded. */
  lemma SuccessesSnoc<X>(runs: seq<OptResult<X>>, r: OptResult<X>)
    ensures Successes(runs + [r]) == Successes(runs) + (if r.success then [r.x] else [])
  {
    assert (runs + [r])[..|runs|] == runs;
  }

  /** Extending a prefix of the runs by the next run. */
  lemma SuccessesPrefixNext<X>(runs: seq<OptResult<X>>, i: int)
    requires 0 <= i < |runs|
    ensures Successes(runs[..i + 1]) == Successes(runs[..i]) + (if runs[i].success then [runs[i].x] else [])
  {
    assert runs[..i + 1] == runs[..i] + [runs[i]];
    SuccessesSnoc(runs[..i], runs[i]);
  }

  /** A point is kept exactly when some run reached it and succeeded. */
  lemma {:induction false} SuccessesMembership<X>(runs: seq<OptResult<X>>, x: X)
    ensures x in Successes(runs) <==> exists j :: 0 <= j < |runs| && runs[j].success && runs[j].x == x
  {
    if |runs| > 0 {
      var init := runs[..|runs| - 1];
      var last := runs[|runs| - 1];
      SuccessesMembership(init, x);
      assert runs == init + [last];
      SuccessesSnoc(init, last);
      if exists j :: 0 <= j < |runs| && runs[j].success && runs[j].x == x {
        var j :| 0 <= j < |runs| && runs[j].success && runs[j].x == x;
        if j < |runs| - 1 {
          assert init[j] == runs[j];
        }
      }
      if x in Successes(init) {
        var j :| 0 <= j < |init| && init[j].success && init[j].x == x;
        assert runs[j] == init[j];
      }
    }
  }

  /** When every run succeeds, every point is kept, in run order. */
  lemma {:induction false} SuccessesAllSucceed<X>(runs: seq<OptResult<X>>)
    requires forall i :: 0 <= i < |runs| ==> runs[i].success
    ensures |Successes(runs)| == |runs|
    ensures forall i :: 0 <= i < |runs| ==> Successes(runs)[i] == runs[i].x
  {
    if |runs| > 0 {
      var init := runs[..|runs| - 1];
      SuccessesAllSucceed(init);
    }
  }

  /** Every response's three signals line up, as `split_signal` builds them. */
  predicate AllAligned(steps: seq<StepData>)
  {
    forall i :: 0 <= i < |steps| ==> Aligned(steps[i])
  }

  /** `dv = P(u_final) - P(u_initial)`: the static model's change across the step. */
  function Dv(s: StepData, coefficients: seq<real>): (d: real)
    ensures d == Poly.PowerSum(coefficients, s.uFinal) - Poly.PowerSum(coefficients, s.uInitial)
  {
    Poly.PolyVal(coefficients, s.uFinal) - Poly.PolyVal(coefficients, s.uInitial)
  }
}

=== FILE: identify_fast.dfy ===
/** Identification of the fast dynamics `G_fast(s)`: fit gain, damping and
    angular frequency to the fast part of step responses, one optimisation per
    trial, and keep the median of each parameter over the successful trials. */
module IdentifyFast {
  import opened Common
  import Stats
  import opened StepResponses
  import opened Fitting
  import Poly
  import PySlice

  /** `[gain, alpha, omega]`. */
  datatype FastParams = FastParams(gain: real, alpha: real, omega: real)

  /** A `(low, high)` pair of the optimiser's bounds. */
  datatype Interval = Interval(low: real, high: real)

  datatype FastBounds = FastBounds(gain: Interval, alpha: Interval, omega: Interval)

  /** The defaults of `k_initial`, `alpha_initial`, `omega_initial` and `bounds`. */
  const DefaultInitial := FastParams(0.5, 10.0, 10.0)
  const DefaultBounds := FastBounds(Interval(0.0, 1.0), Interval(0.001, 1000.0), Interval(0.001, 1000.0))

  /** `__calculate_response_fast(time, gain, alpha, omega)`: the normalised fast
      step response at one instant; cosine, exponential and square root stay abstract. */
  type FastCurve = (real, FastParams) -> real

  /** `minimize(cost, x0, bounds=bounds, method='Nelder-Mead')`. */
  type FastMinimizer = (FastParams -> Option<real>, FastParams, FastBounds) -> OptResult<FastParams>

  /** `get_fast_model_y`: one model value per sample of the fast view,
      `y_initial + r(t_i) * dv`. */
  function ModelY(s: StepData, coefficients: seq<real>, x: FastParams, curve: FastCurve): seq<real>
  {
    var ts := FastView(s).t;
    seq(|ts|, i requires 0 <= i < |ts| => s.yInitial + curve(ts[i], x) * Dv(s, coefficients))
  }

  /** For a well-formed response the model has one value per sample of
      `[i_switch, i_fast)`: the initial output plus the curve at that sample's
      time, scaled by the static polynomial's rise from `u_initial` to `u_final`. */
  lemma ModelYAtSamples(s: StepData, coefficients: seq<real>, x: FastParams, curve: FastCurve)
    requires Aligned(s) && 0 <= s.iSwitch <= s.iFast <= |s.t|
    ensures var ym := ModelY(s, coefficients, x, curve);
      && |ym| == s.iFast - s.iSwitch
      && forall i :: 0 <= i < |ym| ==>
           ym[i] == s.yInitial + curve(s.t[s.iSwitch + i], x)
                      * (Poly.PowerSum(coefficients, s.uFinal) - Poly.PowerSum(coefficients, s.uInitial))
  {
    PySlice.SliceInRange(s.t, s.iSwitch, s.iFast);
    assert FastView(s).t == s.t[s.iSwitch..s.iFast];
    var ym := ModelY(s, coefficients, x, curve);
    assert |ym| == s.iFast - s.iSwitch;
  }

  /** The model reads only the initial output, the two input levels and the
      fast view's times: responses that agree on those give the same model. */
  lemma ModelYDependsOnFastTimes(a: StepData, b: StepData, coefficients: seq<real>, x: FastParams, curve: FastCurve)
    requires a.yInitial == b.yInitial && a.uInitial == b.uInitial && a.uFinal == b.uFinal
    requires FastView(a).t == FastView(b).t
    ensures ModelY(a, coefficients, x, curve) == ModelY(b, coefficients, x, curve)
  {
    assert Dv(a, coefficients) == Dv(b, coefficients);
  }

  /** `__opt_goal`: the mean absolute deviation of model from measurement over
      the fast view; `None` (numpy's NaN) when the fast view is empty. It is
      never negative, and it is zero exactly when the model hits every sample. */
  function Cost(s: StepData, coefficients: seq<real>, curve: FastCurve, x: FastParams): (j: Option<real>)
    requires Aligned(s)
    ensures j.Some? <==> |FastView(s).t| > 0
    ensures j.Some? ==> 0.0 <= j.value
    ensures j.Some? ==> (j.value == 0.0 <==> ModelY(s, coefficients, x, curve) == FastView(s).y)
  {
    FastViewIsPrefixOfAfterView(s);
    Stats.MeanAbsDev(ModelY(s, coefficients, x, curve), FastView(s).y)
  }

  /** One optimisation of the cost of response `s` from `x0`. */
  function Trial(s: StepData, coefficients: seq<real>, curve: FastCurve, minimize: FastMinimizer,
                 x0: FastParams, bounds: FastBounds): OptResult<FastParams>
    requires Aligned(s)
  {
    minimize(x => Cost(s, coefficients, curve, x), x0, bounds)
  }

  /** One draw of the random strategy: the response index from `randint` and
      the three starting values from `uniform`. */
  datatype Draw = Draw(step: int, x0: FastParams)

  /** `uniform(low, high)` yields a value between the two ends. */
  predicate InInterval(v: real, iv: Interval)
  {
    iv.low <= v <= iv.high || iv.high <= v <= iv.low
  }

  /** `randint(low=0, high=Ns-1)` excludes its upper end, so the drawn index
      lies in `[0, Ns-1)`; the starting values lie within their bounds. */
  predicate DrawValid(d: Draw, ns: int, bounds: FastBounds)
  {
    && 0 <= d.step < ns - 1
    && InInterval(d.x0.gain, bounds.gain)
    && InInterval(d.x0.alpha, bounds.alpha)
    && InInterval(d.x0.omega, bounds.omega)
  }

  /** The random strategy with at least two responses consumes `5 * Ns` draws. */
  predicate DrawsSupplied(algorithm: string, ns: int, bounds: FastBounds, draws: seq<Draw>)
  {
    algorithm == "random" && ns >= 2 ==>
      |draws| == 5 * ns && forall i :: 0 <= i < |draws| ==> DrawValid(draws[i], ns, bounds)
  }

  /** The 'fixed' strategy's optimisations: one per response, in order, all
      from `x0`. */
  function FixedTrials(steps: seq<StepData>, coefficients: seq<real>, curve: FastCurve, minimize: FastMinimizer,
                       x0: FastParams, bounds: FastBounds): seq<OptResult<FastParams>>
    requires AllAligned(steps)
  {
    seq(|steps|, i requires 0 <= i < |steps| => Trial(steps[i], coefficients, curve, minimize, x0, bounds))
  }

  /** The 'random' strategy's optimisations: one per draw, each on the drawn
      response from the drawn start. */
  function RandomTrials(steps: seq<StepData>, coefficients: seq<real>, curve: FastCurve, minimize: FastMinimizer,
                        bounds: FastBounds, draws: seq<Draw>): seq<OptResult<FastParams>>
    requires AllAligned(steps) && |steps| >= 2
    requires DrawsSupplied("random", |steps|, bounds, draws)
  {
    seq(|draws|, i requires 0 <= i < |draws| =>
      Trial(steps[draws[i].step], coefficients, curve, minimize, draws[i].x0, bounds))
  }

  /** The optimisations each strategy runs, in order: 'fixed' one per response
      from the same start, 'random' `5 * Ns` on drawn responses from drawn
      starts, anything else none. */
  function Trials(steps: seq<StepData>, coefficients: seq<real>, curve: FastCurve, minimize: FastMinimizer,
                  x0: FastParams, bounds: FastBounds, algorithm: string, draws: seq<Draw>): (runs: seq<OptResult<FastParams>>)
    requires AllAligned(steps)
    requires DrawsSupplied(algorithm, |steps|, bounds, draws)
    ensures algorithm == "fixed" ==> |runs| == |steps|
    ensures algorithm == "fixed" ==>
      forall i :: 0 <= i < |steps| ==> runs[i] == Trial(steps[i], coefficients, curve, minimize, x0, bounds)
    ensures algorithm == "random" && |steps| != 1 ==> |runs| == 5 * |steps|
    ensures algorithm == "random" && |steps| >= 2 ==>
      forall i :: 0 <= i < |runs| ==>
        runs[i] == Trial(steps[draws[i].step], coefficients, curve, minimize, draws[i].x0, bounds)
    ensures algorithm != "fixed" && algorithm != "random" ==> runs == []
  {
    if algorithm == "fixed" then FixedTrials(steps, coefficients, curve, minimize, x0, bounds)
    else if algorithm == "random" && |steps| >= 2 then RandomTrials(steps, coefficients, curve, minimize, bounds, draws)
    else []
  }

  /** The random strategy never selects the last response: changing it leaves
      every trial unchanged. */
  lemma RandomIgnoresLastResponse(a: seq<StepData>, b: seq<StepData>, coefficients: seq<real>, curve: FastCurve,
                                  minimize: FastMinimizer, x0: FastParams, bounds: FastBounds, draws: seq<Draw>)
    requires |a| == |b| && |a| >= 2
    requires a[..|a| - 1] == b[..|b| - 1]
    requires AllAligned(a) && AllAligned(b)
    requires DrawsSupplied("random", |a|, bounds, draws)
    ensures Trials(a, coefficients, curve, minimize, x0, bounds, "random", draws)
         == Trials(b, coefficients, curve, minimize, x0, bounds, "random", draws)
  {
    var ta := Trials(a, coefficients, curve, minimize, x0, bounds, "random", draws);
    var tb := Trials(b, coefficients, curve, minimize, x0, bounds, "random", draws);
    forall i | 0 <= i < |draws| ensures ta[i] == tb[i] {
      var k := draws[i].step;
      assert a[k] == a[..|a| - 1][k] == b[..|b| - 1][k] == b[k];
    }
  }

  function Gains(fits: seq<FastParams>): seq<real>
  {
    seq(|fits|, i requires 0 <= i < |fits| => fits[i].gain)
  }

  function Alphas(fits: seq<FastParams>): seq<real>
  {
    seq(|fits|, i requires 0 <= i < |fits| => fits[i].alpha)
  }

  function Omegas(fits: seq<FastParams>): seq<real>
  {
    seq(|fits|, i requires 0 <= i < |fits| => fits[i].omega)
  }

  /** The element-wise median of the three lists; a NaN median (an empty list)
      is reported as `NoSuccessfulFit`. */
  function Aggregate(ks: seq<real>, alphas: seq<real>, omegas: seq<real>): (r: Result<FastParams, FitError>)
    ensures r.Success? <==> |ks| > 0 && |alphas| > 0 && |omegas| > 0
    ensures r.Success? ==>
      && Some(r.value.gain) == Stats.Median(ks)
      && Some(r.value.alpha) == Stats.Median(alphas)
      && Some(r.value.omega) == Stats.Median(omegas)
    ensures r.Failure? ==> r.error == NoSuccessfulFit
  {
    match (Stats.Median(ks), Stats.Median(alphas), Stats.Median(omegas))
    case (Some(k), Some(a), Some(o)) => Success(FastParams(k, a, o))
    case _ => Failure(NoSuccessfulFit)
  }

  /** The result does not depend on the order in which the lists were filled. */
  lemma AggregateOrderFree(ks: seq<real>, alphas: seq<real>, omegas: seq<real>,
                           ks': seq<real>, alphas': seq<real>, omegas': seq<real>)
    requires multiset(ks) == multiset(ks') && multiset(alphas) == multiset(alphas')
    requires multiset(omegas) == multiset(omegas')
    ensures Aggregate(ks, alphas, omegas) == Aggregate(ks', alphas', omegas')
  {
    Stats.MedianPermutationInvariant(ks, ks');
    Stats.MedianPermutationInvariant(alphas, alphas');
    Stats.MedianPermutationInvariant(omegas, omegas');
  }

  /** When every successful fit respects the bounds, so does the result: each
      median lies between the least and the greatest kept value. */
  lemma AggregateWithinBounds(fits: seq<FastParams>, bounds: FastBounds)
    requires |fits| > 0
    requires forall i :: 0 <= i < |fits| ==>
      && bounds.gain.low <= fits[i].gain <= bounds.gain.high
      && bounds.alpha.low <= fits[i].alpha <= bounds.alpha.high
      && bounds.omega.low <= fits[i].omega <= bounds.omega.high
    ensures var r := Aggregate(Gains(fits), Alphas(fits), Omegas(fits));
      && r.Success?
      && bounds.gain.low <= r.value.gain <= bounds.gain.high
      && bounds.alpha.low <= r.value.alpha <= bounds.alpha.high
      && bounds.omega.low <= r.value.omega <= bounds.omega.high
  {
    Stats.MedianBounds(Gains(fits), bounds.gain.low, bounds.gain.high);
    Stats.MedianBounds(Alphas(fits), bounds.alpha.low, bounds.alpha.high);
    Stats.MedianBounds(Omegas(fits), bounds.omega.low, bounds.omega.high);
  }

  /** The three lists after one more trial: all grow together, and only on success. */
  lemma ListsNext(runs: seq<OptResult<FastParams>>, i: int)
    requires 0 <= i < |runs|
    ensures var fits := Successes(runs[..i + 1]);
      var r := runs[i];
      && Gains(fits) == Gains(Successes(runs[..i])) + (if r.success then [r.x.gain] else [])
      && Alphas(fits) == Alphas(Successes(runs[..i])) + (if r.success then [r.x.alpha] else [])
      && Omegas(fits) == Omegas(Successes(runs[..i])) + (if r.success then [r.x.omega] else [])
  {
    SuccessesPrefixNext(runs, i);
  }

  /** Each position of the three lists holds gain, damping and frequency of
      one and the same successful trial. */
  lemma ListsComeFromSuccessfulTrials(runs: seq<OptResult<FastParams>>, i: int)
    requires 0 <= i < |Successes(runs)|
    ensures var fits := Successes(runs);
      exists j :: 0 <= j < |runs| && runs[j].success
        && runs[j].x == FastParams(Gains(fits)[i], Alphas(fits)[i], Omegas(fits)[i])
  {
    var fits := Successes(runs);
    assert fits[i] == FastParams(Gains(fits)[i], Alphas(fits)[i], Omegas(fits)[i]);
    SuccessesMembership(runs, fits[i]);
  }

  /** The 'fixed' strategy: one optimisation per response, in order, all from
      `x0`; each success appends to all three lists. */
  method RunFixed(steps: seq<StepData>, coefficients: seq<real>, curve: FastCurve, minimize: FastMinimizer,
                  x0: FastParams, bounds: FastBounds)
    returns (kList: seq<real>, alphaList: seq<real>, omegaList: seq<real>)
    requires AllAligned(steps)
    ensures var fits := Successes(FixedTrials(steps, coefficients, curve, minimize, x0, bounds));
      kList == Gains(fits) && alphaList == Alphas(fits) && omegaList == Omegas(fits)
  {
    kList, alphaList, omegaList := [], [], [];
    var runs := FixedTrials(steps, coefficients, curve, minimize, x0, bounds);
    for i := 0 to |runs|
      invariant kList == Gains(Successes(runs[..i]))
      invariant alphaList == Alphas(Successes(runs[..i]))
      invariant omegaList == Omegas(Successes(runs[..i]))
    {
      var res := runs[i];
      ListsNext(runs, i);
      kList := kList + (if res.success then [res.x.gain] else []);
      alphaList := alphaList + (if res.success then [res.x.alpha] else []);
      omegaList := omegaList + (if res.success then [res.x.omega] else []);
    }
    assert runs[..|runs|] == runs;
  }

  /** The 'random' strategy with at least two responses: `5 * Ns` optimisations,
      each on the drawn response from the drawn start. */
  method RunRandom(steps: seq<StepData>, coefficients: seq<real>, curve: FastCurve, minimize: FastMinimizer,
                   bounds: FastBounds, draws: seq<Draw>)
    returns (kList: seq<real>, alphaList: seq<real>, omegaList: seq<real>)
    requires AllAligned(steps) && |steps| >= 2
    requires DrawsSupplied("random", |steps|, bounds, draws)
    ensures var fits := Successes(RandomTrials(steps, coefficients, curve, minimize, bounds, draws));
      kList == Gains(fits) && alphaList == Alphas(fits) && omegaList == Omegas(fits)
  {
    kList, alphaList, omegaList := [], [], [];
    var runs := RandomTrials(steps, coefficients, curve, minimize, bounds, draws);
    for i := 0 to |runs|
      invariant kList == Gains(Successes(runs[..i]))
      invariant alphaList == Alphas(Successes(runs[..i]))
      invariant omegaList == Omegas(Successes(runs[..i]))
    {
      var res := runs[i];
      ListsNext(runs, i);
      kList := kList + (if res.success then [res.x.gain] else []);
      alphaList := alphaList + (if res.success then [res.x.alpha] else []);
      omegaList := omegaList + (if res.success then [res.x.omega] else []);
    }
    assert runs[..|runs|] == runs;
  }

  /** `identify_fast`: run the chosen strategy's trials, append gain, damping
      and frequency of each successful trial to three lists, and return their
      medians. The lists come out of equal length, bounded by the number of
      trials, and hold exactly the successful trials' points in trial order. */
  method Identify(steps: seq<StepData>, coefficients: seq<real>, curve: FastCurve, minimize: FastMinimizer,
                  x0: FastParams, bounds: FastBounds, algorithm: string, draws: seq<Draw>)
    returns (kList: seq<real>, alphaList: seq<real>, omegaList: seq<real>, result: Result<FastParams, FitError>)
    requires AllAligned(steps)
    requires DrawsSupplied(algorithm, |steps|, bounds, draws)
    ensures |kList| == |alphaList| == |omegaList|
    ensures algorithm == "fixed" ==> |kList| <= |steps|
    ensures algorithm == "random" ==> |kList| <= 5 * |steps|
    ensures algorithm != "fixed" && algorithm != "random" ==> kList == [] && result == Failure(NoSuccessfulFit)
    ensures algorithm == "random" && |steps| == 1 ==> kList == [] && result == Failure(EmptyDrawRange)
    ensures !(algorithm == "random" && |steps| == 1) ==>
      var fits := Successes(Trials(steps, coefficients, curve, minimize, x0, bounds, algorithm, draws));
      && kList == Gains(fits) && alphaList == Alphas(fits) && omegaList == Omegas(fits)
      && result == Aggregate(kList, alphaList, omegaList)
  {
    if algorithm == "fixed" {
      kList, alphaList, omegaList := RunFixed(steps, coefficients, curve, minimize, x0, bounds);
    } else if algorithm == "random" && |steps| == 1 {
      return [], [], [], Failure(EmptyDrawRange);
    } else if algorithm == "random" && |steps| >= 2 {
      kList, alphaList, omegaList := RunRandom(steps, coefficients, curve, minimize, bounds, draws);
    } else {
      kList, alphaList, omegaList := [], [], [];
    }
    result := Aggregate(kList, alphaList, omegaList);
  }
}

=== FILE: identify_slow.dfy ===
/** Identification of the slow dynamics: fit the pole `s0` of the slow
    first-order part to the whole after-switch part of each response, with the
    zero tied to the pole by `z0 = s0 / k_fast`, and keep the median pole. */
module IdentifySlow {
  import opened Common
  import Stats
  import opened StepResponses
  import opened Fitting
  import Poly

  /** The exponential, left abstract. */
  type Exp = real -> real

  /** `minimize(cost, x0, method='Nelder-Mead')` over the single parameter `s0`. */
  type SlowMinimizer = (real -> Option<real>, real) -> OptResult<real>

  /** The default of `s0_initial`. */
  const DefaultInitialPole := 0.2

  /** `__calculate_slow_model_response`: `z0/s0 - ((z0 - s0)/s0) * exp(-s0 * t)`. */
  function Response(time: real, s0: real, z0: real, exp: Exp): (r: real)
    requires s0 != 0.0
    ensures z0 == s0 ==> r == 1.0
    ensures exp(-s0 * time) == 1.0 ==> r == 1.0
  {
    var e := exp(-s0 * time);
    assert z0 == s0 ==> (z0 - s0) / s0 == 0.0 && z0 / s0 == 1.0;
    assert z0 / s0 - (z0 - s0) / s0 == 1.0 by {
      assert z0 / s0 - (z0 - s0) / s0 == (z0 - (z0 - s0)) / s0;
    }
    z0 / s0 - ((z0 - s0) / s0) * exp(-s0 * time)
  }

  /** At the switch instant the slow response is 1, whatever the zero. */
  lemma ResponseAtZero(s0: real, z0: real, exp: Exp)
    requires s0 != 0.0 && exp(0.0) == 1.0
    ensures Response(0.0, s0, z0, exp) == 1.0
  {
    assert -s0 * 0.0 == 0.0;
    assert z0 / s0 - (z0 - s0) / s0 == (z0 - (z0 - s0)) / s0;
  }

  /** `get_slow_model_y`: one model value per sample of the after view,
      `y_initial + k_fast * r(t_i) * dv`. */
  function ModelY(s: StepData, coefficients: seq<real>, s0: real, z0: real, kFast: real, exp: Exp): seq<real>
    requires s0 != 0.0
  {
    var ts := AfterView(s).t;
    seq(|ts|, i requires 0 <= i < |ts| => s.yInitial + kFast * Response(ts[i], s0, z0, exp) * Dv(s, coefficients))
  }

  /** For a response whose switch index lies inside it, the model has one value
      per sample from the switch on: the initial output plus `k_fast` times the
      slow response at that sample's time, scaled by the static polynomial's
      rise from `u_initial` to `u_final`. */
  lemma ModelYAtSamples(s: StepData, coefficients: seq<real>, s0: real, z0: real, kFast: real, exp: Exp)
    requires s0 != 0.0
    requires Aligned(s) && 0 <= s.iSwitch <= |s.t|
    ensures |ModelY(s, coefficients, s0, z0, kFast, exp)| == |s.t| - s.iSwitch
    ensures forall i :: 0 <= i < |s.t| - s.iSwitch ==>
      ModelY(s, coefficients, s0, z0, kFast, exp)[i]
        == s.yInitial + kFast * Response(s.t[s.iSwitch + i], s0, z0, exp)
             * (Poly.PowerSum(coefficients, s.uFinal) - Poly.PowerSum(coefficients, s.uInitial))
  {
    assert AfterView(s).t == s.t[s.iSwitch..];
    var ym := ModelY(s, coefficients, s0, z0, kFast, exp);
    assert |ym| == |s.t| - s.iSwitch;
  }

  /** At a sample taken exactly at the switch the slow model predicts
      `y_initial + k_fast * dv`: the level the fast part settles at, not `y_initial`. */
  lemma ModelAtSwitch(s: StepData, coefficients: seq<real>, s0: real, z0: real, kFast: real, exp: Exp)
    requires s0 != 0.0 && exp(0.0) == 1.0
    requires |AfterView(s).t| > 0 && AfterView(s).t[0] == 0.0
    ensures ModelY(s, coefficients, s0, z0, kFast, exp)[0] == s.yInitial + kFast * Dv(s, coefficients)
  {
    ResponseAtZero(s0, z0, exp);
  }

  /** `z0 = s0 / k_fast`: the zero that makes the slow part's static gain match
      the fast gain, `z0 * k_fast == s0`. */
  function Zero(s0: real, kFast: real): (z0: real)
    requires kFast != 0.0
    ensures z0 * kFast == s0
  {
    s0 / kFast
  }

  /** `__opt_goal`: the mean absolute deviation of the model from the
      measurement over the after view, with the zero coupled to the pole.
      `None` stands for numpy's NaN: a zero pole or a zero fast gain divides by
      zero, and an empty after view has no mean. Never negative; zero exactly
      when the model hits every sample. */
  function Cost(s: StepData, coefficients: seq<real>, kFast: real, exp: Exp, s0: real): (j: Option<real>)
    requires Aligned(s)
    ensures j.Some? <==> s0 != 0.0 && kFast != 0.0 && |AfterView(s).t| > 0
    ensures j.Some? ==> 0.0 <= j.value
    ensures j.Some? ==>
      (j.value == 0.0 <==> ModelY(s, coefficients, s0, Zero(s0, kFast), kFast, exp) == AfterView(s).y)
  {
    if s0 == 0.0 || kFast == 0.0 then None
    else
      FastViewIsPrefixOfAfterView(s);
      Stats.MeanAbsDev(ModelY(s, coefficients, s0, Zero(s0, kFast), kFast, exp), AfterView(s).y)
  }

  /** One optimisation of the cost of response `s` from `x0`. */
  function Trial(s: StepData, coefficients: seq<real>, kFast: real, exp: Exp, minimize: SlowMinimizer, x0: real): OptResult<real>
    requires Aligned(s)
  {
    minimize(x => Cost(s, coefficients, kFast, exp, x), x0)
  }

  /** One optimisation per response, in order, all from the same start. */
  function Trials(steps: seq<StepData>, coefficients: seq<real>, kFast: real, exp: Exp, minimize: SlowMinimizer, x0: real)
    : seq<OptResult<real>>
    requires AllAligned(steps)
  {
    seq(|steps|, i requires 0 <= i < |steps| => Trial(steps[i], coefficients, kFast, exp, minimize, x0))
  }

  /** The identified pole and zero. */
  datatype SlowParams = SlowParams(s0: real, z0: real)

  /** The median pole and the zero derived from it. An empty list (a NaN
      median) and a zero fast gain (an infinite zero) yield no parameters. */
  function Aggregate(s0List: seq<real>, kFast: real): (r: Result<SlowParams, FitError>)
    ensures r.Success? <==> |s0List| > 0 && kFast != 0.0
    ensures |s0List| == 0 ==> r == Failure(NoSuccessfulFit)
    ensures |s0List| > 0 && kFast == 0.0 ==> r == Failure(ZeroFastGain)
    ensures r.Success? ==> Some(r.value.s0) == Stats.Median(s0List) && r.value.z0 == Zero(r.value.s0, kFast)
  {
    var m := Stats.Median(s0List);
    if m.None? then Failure(NoSuccessfulFit)
    else if kFast == 0.0 then Failure(ZeroFastGain)
    else
      Success(SlowParams(m.value, Zero(m.value, kFast)))
  }

  /** The result does not depend on the order in which the poles were appended. */
  lemma AggregateOrderFree(a: seq<real>, b: seq<real>, kFast: real)
    requires multiset(a) == multiset(b)
    ensures Aggregate(a, kFast) == Aggregate(b, kFast)
  {
    Stats.MedianPermutationInvariant(a, b);
  }

  /** The trial loop: one optimisation per response from `x0`, the pole of
      each successful one appended, in response order. */
  method RunTrials(steps: seq<StepData>, coefficients: seq<real>, kFast: real, exp: Exp, minimize: SlowMinimizer, x0: real)
    returns (s0List: seq<real>)
    requires AllAligned(steps)
    ensures s0List == Successes(Trials(steps, coefficients, kFast, exp, minimize, x0))
  {
    s0List := [];
    var runs := Trials(steps, coefficients, kFast, exp, minimize, x0);
    for i := 0 to |runs|
      invariant s0List == Successes(runs[..i])
    {
      var res := runs[i];
      SuccessesPrefixNext(runs, i);
      if res.success {
        s0List := s0List + [res.x];
      }
    }
    assert runs[..|runs|] == runs;
  }

  /** `identify_slow`: one optimisation per response from `x0`, the pole of
      each successful one appended to a list, and the median pole returned
      together with its zero. */
  method Identify(steps: seq<StepData>, coefficients: seq<real>, kFast: real, exp: Exp, minimize: SlowMinimizer, x0: real)
    returns (s0List: seq<real>, result: Result<SlowParams, FitError>)
    requires AllAligned(steps)
    ensures |s0List| <= |steps|
    ensures s0List == Successes(Trials(steps, coefficients, kFast, exp, minimize, x0))
    ensures result == Aggregate(s0List, kFast)
    ensures result.Success? ==> result.value.z0 == Zero(result.value.s0, kFast)
  {
    s0List := RunTrials(steps, coefficients, kFast, exp, minimize, x0);
    result := Aggregate(s0List, kFast);
  }
}

=== FILE: identify_static.dfy ===
/** Identification of the static input nonlinearity: pair each response's
    steady-state input with its steady-state output, fit a polynomial through
    the pairs and evaluate it at the collected inputs. */
module IdentifyStatic {
  import opened Common
  import Poly
  import opened StepResponses

  /** `np.polyfit(u_static, y_static, poly_order)`: coefficients, highest degree
      first, or `None` where numpy raises (an empty point set, a negative order). */
  type PolyFit = (seq<real>, seq<real>, int) -> Option<seq<real>>

  /** The default of `poly_order`. */
  const DefaultPolyOrder := 3

  /** `static_model`, `u_static`, `y_static`, `y_model`; the returned
      `poly_static_model` is `Poly.PolyVal(coefficients, _)`. */
  datatype StaticModel = StaticModel(coefficients: seq<real>, uStatic: seq<real>,
                                     yStatic: seq<real>, yModel: seq<real>)

  /** The steady-state pairs, appended one response at a time. */
  function SteadyPoints(steps: seq<StepData>): (pts: (seq<real>, seq<real>))
    ensures |pts.0| == |steps| && |pts.1| == |steps|
    ensures forall i :: 0 <= i < |steps| ==> pts.0[i] == steps[i].uFinal && pts.1[i] == steps[i].yFinal
  {
    if |steps| == 0 then ([], [])
    else
      var init := SteadyPoints(steps[..|steps| - 1]);
      var last := steps[|steps| - 1];
      (init.0 + [last.uFinal], init.1 + [last.yFinal])
  }

  /** The static model evaluated at every collected input. */
  function Evaluate(coefficients: seq<real>, us: seq<real>): (ys: seq<real>)
    ensures |ys| == |us|
    ensures forall i :: 0 <= i < |us| ==> ys[i] == Poly.PowerSum(coefficients, us[i])
  {
    seq(|us|, i requires 0 <= i < |us| => Poly.PolyVal(coefficients, us[i]))
  }

  /** `identify_static`: the pairs are the responses' final values in response
      order, the coefficients are whatever the fit returns for them, and the
      model values are the fitted polynomial at the collected inputs. */
  function Identify(steps: seq<StepData>, polyOrder: int, fit: PolyFit): (r: Option<StaticModel>)
    ensures r.Some? <==> fit(SteadyPoints(steps).0, SteadyPoints(steps).1, polyOrder).Some?
    ensures r.Some? ==>
      && fit(r.value.uStatic, r.value.yStatic, polyOrder) == Some(r.value.coefficients)
      && |r.value.uStatic| == |steps| && |r.value.yStatic| == |steps| && |r.value.yModel| == |steps|
      && (forall i :: 0 <= i < |steps| ==>
            && r.value.uStatic[i] == steps[i].uFinal
            && r.value.yStatic[i] == steps[i].yFinal
            && r.value.yModel[i] == Poly.PowerSum(r.value.coefficients, steps[i].uFinal))
  {
    var pts := SteadyPoints(steps);
    match fit(pts.0, pts.1, polyOrder)
    case None => None
    case Some(c) => Some(StaticModel(c, pts.0, pts.1, Evaluate(c, pts.0)))
  }

  /** Only the final steady-state values are read: responses that agree on
      `u_final` and `y_final` give the same static model, whatever their
      signals, initial values or indices. */
  lemma OnlyFinalValuesMatter(a: seq<StepData>, b: seq<StepData>, polyOrder: int, fit: PolyFit)
    requires |a| == |b|
    requires forall i :: 0 <= i < |a| ==> a[i].uFinal == b[i].uFinal && a[i].yFinal == b[i].yFinal
    ensures Identify(a, polyOrder, fit) == Identify(b, polyOrder, fit)
  {
    assert SteadyPoints(a).0 == SteadyPoints(b).0;
    assert SteadyPoints(a).1 == SteadyPoints(b).1;
  }
}

=== FILE: poly.dfy ===
/** Evaluation of a coefficient vector the way `np.poly1d` does it: highest
    degree first, by Horner's scheme. */
module Poly {

  function Pow(x: real, n: nat): real
  {
    if n == 0 then 1.0 else x * Pow(x, n - 1)
  }

  /** Reference meaning of a coefficient vector `c` of length `n`:
      the sum of `c[i] * x^(n-1-i)`. */
  function PowerSum(c: seq<real>, x: real): real
  {
    if |c| == 0 then 0.0 else c[0] * Pow(x, |c| - 1) + PowerSum(c[1..], x)
  }

  /** Horner's loop `acc := acc * x + c` over the coefficients, left to right. */
  function Horner(acc: real, c: seq<real>, x: real): real
    decreases |c|
  {
    if |c| == 0 then acc else Horner(acc * x + c[0], c[1..], x)
  }

  /** One Horner step distributes over the remaining power. */
  lemma StepDistributes(acc: real, x: real, c0: real, p: real)
    ensures (acc * x + c0) * p == acc * (x * p) + c0 * p
  {
  }

  lemma {:induction false} HornerIsPowerSum(acc: real, c: seq<real>, x: real)
    ensures Horner(acc, c, x) == acc * Pow(x, |c|) + PowerSum(c, x)
    decreases |c|
  {
    if |c| > 0 {
      var n := |c|;
      var tail := c[1..];
      assert |tail| == n - 1;
      var p := Pow(x, n - 1);
      var acc' := acc * x + c[0];
      HornerIsPowerSum(acc', tail, x);
      assert Horner(acc, c, x) == Horner(acc', tail, x);
      StepDistributes(acc, x, c[0], p);
      assert Pow(x, n) == x * p;
    }
  }

  /** The value at `x` of the polynomial with coefficients `c`, highest degree
      first; an empty vector is the zero polynomial. */
  function PolyVal(c: seq<real>, x: real): (r: real)
    ensures r == PowerSum(c, x)
  {
    HornerIsPowerSum(0.0, c, x);
    Horner(0.0, c, x)
  }

  /** Leading zero coefficients, which `np.poly1d` strips, do not change the value. */
  lemma LeadingZeroIrrelevant(c: seq<real>, x: real)
    ensures PolyVal([0.0] + c, x) == PolyVal(c, x)
  {
    assert ([0.0] + c)[1..] == c;
  }
}

=== FILE: py_slice.dfy ===
/** Python's slicing of a sequence, `s[lo:hi]` and `s[lo:]`, with step 1. */
module PySlice {

  /** Where a slice bound lands in a sequence of length `n`: a negative bound
      counts back from the end, and the result is clamped to `[0, n]`. */
  function Bound(i: int, n: nat): (r: nat)
    ensures r <= n
    ensures 0 <= i <= n ==> r == i
    ensures i < 0 && i + n >= 0 ==> r == i + n
    ensures i + n < 0 ==> r == 0
    ensures i > n ==> r == n
  {
    if i < 0 then (if i + n < 0 then 0 else i + n)
    else if i > n then n
    else i
  }

  /** `s[lo:hi]`: the elements from the normalised `lo` up to the normalised
      `hi`, none when the normalised bounds cross. */
  function Slice<T>(s: seq<T>, lo: int, hi: int): (r: seq<T>)
    ensures |r| == if Bound(lo, |s|) < Bound(hi, |s|) then Bound(hi, |s|) - Bound(lo, |s|) else 0
    ensures forall i :: 0 <= i < |r| ==> r[i] == s[Bound(lo, |s|) + i]
  {
    var a := Bound(lo, |s|);
    var b := Bound(hi, |s|);
    if a < b then s[a..b] else []
  }

  /** `s[lo:]`: the elements from the normalised `lo` to the end. */
  function SliceFrom<T>(s: seq<T>, lo: int): (r: seq<T>)
    ensures |r| == |s| - Bound(lo, |s|)
    ensures forall i :: 0 <= i < |r| ==> r[i] == s[Bound(lo, |s|) + i]
  {
    s[Bound(lo, |s|)..]
  }

  /** With bounds inside the sequence, Python slicing is Dafny's subsequence. */
  lemma SliceInRange<T>(s: seq<T>, lo: int, hi: int)
    requires 0 <= lo <= |s| && 0 <= hi <= |s|
    ensures lo <= hi ==> Slice(s, lo, hi) == s[lo..hi]
    ensures hi <= lo ==> Slice(s, lo, hi) == []
  {
  }

  /** Slicing two sequences of equal length with the same bounds gives equal lengths. */
  lemma SliceSameLength<T, U>(s: seq<T>, s': seq<U>, lo: int, hi: int)
    requires |s| == |s'|
    ensures |Slice(s, lo, hi)| == |Slice(s', lo, hi)|
    ensures |SliceFrom(s, lo)| == |SliceFrom(s', lo)|
  {
  }

  /** `s[lo:hi]` is always a prefix of `s[lo:]`, whatever the bounds. */
  lemma SliceIsPrefixOfSliceFrom<T>(s: seq<T>, lo: int, hi: int)
    ensures Slice(s, lo, hi) <= SliceFrom(s, lo)
  {
  }
}

=== FILE: split_signal.dfy ===
/** Cutting a recording into step responses, one per switching period. */
module SplitSignal {
  import opened Common
  import PySlice
  import Stats
  import opened StepResponses

  /** `period_switch`, `duration_fast`, `relative_start_extension`, `steady_end_window`. */
  datatype SplitParams = SplitParams(periodSwitch: real, durationFast: real,
                                     relativeStartExtension: real, steadyEndWindow: real)

  /** The defaults of `relative_start_extension` and `steady_end_window`. */
  const DefaultRelativeStartExtension := 0.01
  const DefaultSteadyEndWindow := 0.01

  function Dist(x: real, target: real): real
  {
    Abs(x - target)
  }

  /** `i` is the first index among those whose sample is closest to `target`. */
  ghost predicate IsFirstNearest(t: seq<real>, target: real, i: int)
  {
    && 0 <= i < |t|
    && (forall j {:trigger Dist(t[j], target)} :: 0 <= j < |t| ==> Dist(t[i], target) <= Dist(t[j], target))
    && (forall j {:trigger Dist(t[j], target)} :: 0 <= j < i ==> Dist(t[i], target) < Dist(t[j], target))
  }

  /** The first index of a closest sample among `t[..n]`. */
  function NearestIn(t: seq<real>, target: real, n: nat): (i: nat)
    requires 0 < n <= |t|
    ensures i < n
  {
    if n == 1 then 0
    else
      var k := NearestIn(t, target, n - 1);
      if Dist(t[n - 1], target) < Dist(t[k], target) then n - 1 else k
  }

  /** The scan keeps a closest sample of the prefix, and the first one: a later
      sample replaces the kept one only when strictly closer. */
  lemma {:induction false} NearestInIsFirst(t: seq<real>, target: real, n: nat)
    requires 0 < n <= |t|
    ensures forall j {:trigger Dist(t[j], target)} :: 0 <= j < n ==>
      Dist(t[NearestIn(t, target, n)], target) <= Dist(t[j], target)
    ensures forall j {:trigger Dist(t[j], target)} :: 0 <= j < NearestIn(t, target, n) ==>
      Dist(t[NearestIn(t, target, n)], target) < Dist(t[j], target)
  {
    if n > 1 {
      NearestInIsFirst(t, target, n - 1);
    }
  }

  /** `np.argmin(np.abs(t - target))`: a closest sample, the first one on ties. */
  function Nearest(t: seq<real>, target: real): (i: nat)
    requires |t| > 0
    ensures i < |t|
  {
    NearestIn(t, target, |t|)
  }

  /** The argmin index is at least as close as every sample and strictly
      closer than every earlier one. */
  lemma NearestIsFirst(t: seq<real>, target: real)
    requires |t| > 0
    ensures IsFirstNearest(t, target, Nearest(t, target))
  {
    NearestInIsFirst(t, target, |t|);
  }

  /** Being the first closest sample determines the index. */
  lemma NearestUnique(t: seq<real>, target: real, i: int)
    requires |t| > 0
    ensures IsFirstNearest(t, target, i) <==> i == Nearest(t, target)
  {
    NearestIsFirst(t, target);
  }

  predicate NonDecreasing(t: seq<real>)
  {
    forall i, j :: 0 <= i <= j < |t| ==> t[i] <= t[j]
  }

  /** On a non-decreasing time axis a later target never maps to an earlier sample. */
  lemma NearestMonotone(t: seq<real>, a: real, b: real)
    requires |t| > 0 && NonDecreasing(t)
    requires a <= b
    ensures Nearest(t, a) <= Nearest(t, b)
  {
    var i := Nearest(t, a);
    var j := Nearest(t, b);
    NearestIsFirst(t, a);
    NearestIsFirst(t, b);
    // Were j < i, then t[j] <= t[i], `a` would be strictly closer to t[i] and `b`
    // at least as close to t[j]: `a` above their midpoint and `b` at or below it.
    var ti, tj := t[i], t[j];
    assert Dist(tj, b) <= Dist(ti, b);
    assert i > j ==> Dist(ti, a) < Dist(tj, a);
  }

  /** The switch instant of the k-th emitted response (0-based): the loop starts
      at `period_switch` and adds one period per response. */
  function SwitchTime(p: real, k: nat): real
  {
    (k + 1) as real * p
  }

  lemma SwitchTimeNext(p: real, k: nat)
    ensures SwitchTime(p, k + 1) == SwitchTime(p, k) + p
  {
    assert (k + 2) as real * p == (k + 1) as real * p + p;
  }

  /** The switching loop stops: either the period is positive or the loop
      condition already fails at the first switch. */
  predicate LoopTerminates(tFinal: real, p: real)
  {
    p > 0.0 || !(p < tFinal - p)
  }

  function Ceil(x: real): (c: int)
    ensures c as real - 1.0 < x <= c as real
  {
    if x.Floor as real == x then x.Floor else x.Floor + 1
  }

  lemma ScaledBelow(a: real, p: real, x: real)
    requires p > 0.0
    ensures a * p < x <==> a < x / p
  {
    assert (x / p) * p == x;
    if a < x / p {
      assert a * p < (x / p) * p;
    } else {
      assert a * p >= (x / p) * p;
    }
  }

  /** How many responses the loop emits: the number of naturals `k` with
      `(k + 2) * period_switch < t_final`, none when the period is not positive. */
  function EmitCount(tFinal: real, p: real): (n: nat)
    requires LoopTerminates(tFinal, p)
    ensures p <= 0.0 ==> n == 0
  {
    if p <= 0.0 then 0
    else
      var c := Ceil(tFinal / p) - 2;
      if c < 0 then 0 else c
  }

  /** The loop condition holds at the k-th switch exactly when `k` is below the count. */
  lemma EmitCountAt(tFinal: real, p: real, k: nat)
    requires p > 0.0
    ensures k < EmitCount(tFinal, p) <==> SwitchTime(p, k) < tFinal - p
  {
    ScaledBelow((k + 2) as real, p, tFinal);
    SwitchTimeNext(p, k);
  }

  /** The loop emits exactly the `k` whose switch instant precedes `t_final - period_switch`. */
  lemma EmitCountExact(tFinal: real, p: real)
    requires p > 0.0
    ensures forall k: nat :: k < EmitCount(tFinal, p) <==> SwitchTime(p, k) < tFinal - p
  {
    forall k: nat ensures k < EmitCount(tFinal, p) <==> SwitchTime(p, k) < tFinal - p {
      EmitCountAt(tFinal, p, k);
    }
  }

  /** The five sample indices the loop looks up around one switch instant:
      start of the response, its end one period later, the switch itself, the
      end of the fast part and the start of the steady-state window. */
  datatype Indices = Indices(iS: nat, iE: nat, iSwitch: nat, iFast: nat, iFinal: nat)

  predicate IndicesWithin(ix: Indices, n: nat)
  {
    ix.iS < n && ix.iE < n && ix.iSwitch < n && ix.iFast < n && ix.iFinal < n
  }

  /** A fraction `a` of a non-negative period: not negative for `a >= 0`, and
      not above the period for `a <= 1`. */
  lemma FractionOfPeriod(a: real, period: real)
    ensures period >= 0.0 && a >= 0.0 ==> a * period >= 0.0
    ensures period >= 0.0 && a <= 1.0 ==> a * period <= period
  {
    assert period - a * period == (1.0 - a) * period;
  }

  /** `t_start`: the response begins a fraction of a period before the switch. */
  function StartTime(p: SplitParams, tSwitch: real): (ts: real)
    ensures p.relativeStartExtension >= 0.0 && p.periodSwitch >= 0.0 ==> ts <= tSwitch
    ensures p.relativeStartExtension <= 1.0 && p.periodSwitch >= 0.0 ==> tSwitch - p.periodSwitch <= ts
  {
    FractionOfPeriod(p.relativeStartExtension, p.periodSwitch);
    tSwitch - p.relativeStartExtension * p.periodSwitch
  }

  /** `t_end`: the response ends one period after the switch. */
  function EndTime(p: SplitParams, tSwitch: real): (te: real)
    ensures p.periodSwitch > 0.0 ==> tSwitch < te
  {
    tSwitch + p.periodSwitch
  }

  /** `t_fast`: the fast part ends `duration_fast` after the switch. */
  function FastTime(p: SplitParams, tSwitch: real): (tf: real)
    ensures 0.0 <= p.durationFast <= p.periodSwitch ==> tSwitch <= tf <= EndTime(p, tSwitch)
  {
    tSwitch + p.durationFast
  }

  /** `t_steady`: the steady window starts a fraction of a period before the end. */
  function SteadyTime(p: SplitParams, tSwitch: real): (tq: real)
    ensures p.steadyEndWindow >= 0.0 && p.periodSwitch >= 0.0 ==> tq <= EndTime(p, tSwitch)
    ensures p.steadyEndWindow <= 1.0 && p.periodSwitch >= 0.0 ==> tSwitch <= tq
  {
    FractionOfPeriod(p.steadyEndWindow, p.periodSwitch);
    EndTime(p, tSwitch) - p.steadyEndWindow * p.periodSwitch
  }

  function IndicesFor(t: seq<real>, p: SplitParams, tSwitch: real): (ix: Indices)
    requires |t| > 0
    ensures IndicesWithin(ix, |t|)
  {
    Indices(Nearest(t, StartTime(p, tSwitch)), Nearest(t, EndTime(p, tSwitch)), Nearest(t, tSwitch),
            Nearest(t, FastTime(p, tSwitch)), Nearest(t, SteadyTime(p, tSwitch)))
  }

  function IndicesAt(t: seq<real>, p: SplitParams, k: nat): (ix: Indices)
    requires |t| > 0
    ensures IndicesWithin(ix, |t|)
  {
    IndicesFor(t, p, SwitchTime(p.periodSwitch, k))
  }

  /** Both steady-state averaging windows hold a sample. */
  predicate WindowsHold(ix: Indices)
  {
    ix.iS < ix.iSwitch && ix.iFinal < ix.iE
  }

  /** Both steady-state averaging windows of the k-th response hold a sample. */
  predicate WindowsNonEmpty(t: seq<real>, p: SplitParams, k: nat)
    requires |t| > 0
  {
    WindowsHold(IndicesAt(t, p, k))
  }

  /** `x - c` for every sample. */
  function Rebase(s: seq<real>, c: real): seq<real>
  {
    seq(|s|, i requires 0 <= i < |s| => s[i] - c)
  }

  /** The response cut around switch instant `tSwitch`: the signals over
      `[iS, iE)` with time re-based to the switch, the means of the pre-switch
      window `[iS, iSwitch)` and of the steady window `[iFinal, iE)`, and the
      switch and fast indices made local to `iS`. */
  function ResponseFor(t: seq<real>, u: seq<real>, y: seq<real>, tSwitch: real, ix: Indices, counter: int): (r: StepData)
    requires |u| == |t| && |y| == |t|
    requires IndicesWithin(ix, |t|) && WindowsHold(ix)
    ensures Aligned(r)
    ensures |r.t| == if ix.iS < ix.iE then ix.iE - ix.iS else 0
  {
    StepData(Rebase(PySlice.Slice(t, ix.iS, ix.iE), tSwitch),
             PySlice.Slice(u, ix.iS, ix.iE), PySlice.Slice(y, ix.iS, ix.iE),
             Stats.Mean(PySlice.Slice(u, ix.iS, ix.iSwitch)), Stats.Mean(PySlice.Slice(u, ix.iFinal, ix.iE)),
             Stats.Mean(PySlice.Slice(y, ix.iS, ix.iSwitch)), Stats.Mean(PySlice.Slice(y, ix.iFinal, ix.iE)),
             ix.iSwitch - ix.iS, ix.iFast - ix.iS, counter)
  }

  /** The k-th response the loop emits. */
  function StepAt(t: seq<real>, u: seq<real>, y: seq<real>, p: SplitParams, k: nat): (r: StepData)
    requires |t| > 0 && |u| == |t| && |y| == |t|
    requires WindowsNonEmpty(t, p, k)
    ensures Aligned(r) && r.idx == k
    ensures var ix := IndicesAt(t, p, k);
      |r.t| == (if ix.iS < ix.iE then ix.iE - ix.iS else 0)
  {
    ResponseFor(t, u, y, SwitchTime(p.periodSwitch, k), IndicesAt(t, p, k), k)
  }

  /** On a non-decreasing time axis with a positive period and non-negative
      extension and window, the looked-up indices come in time order:
      start, switch, end; the steady window starts no later than the end; the
      fast part ends after the switch and, if it is at most a period long,
      no later than the end. */
  lemma IndicesOrdered(t: seq<real>, p: SplitParams, tSwitch: real)
    requires |t| > 0 && NonDecreasing(t)
    requires p.periodSwitch > 0.0
    requires p.relativeStartExtension >= 0.0 && p.steadyEndWindow >= 0.0
    ensures var ix := IndicesFor(t, p, tSwitch);
      && ix.iS <= ix.iSwitch <= ix.iE
      && ix.iFinal <= ix.iE
      && (p.durationFast >= 0.0 ==> ix.iSwitch <= ix.iFast)
      && (p.durationFast <= p.periodSwitch ==> ix.iFast <= ix.iE)
  {
    var P := p.periodSwitch;
    var tStart := StartTime(p, tSwitch);
    var tEnd := EndTime(p, tSwitch);
    var tFast := FastTime(p, tSwitch);
    var tSteady := SteadyTime(p, tSwitch);
    assert tStart <= tSwitch && tSteady <= tEnd;
    NearestMonotone(t, tStart, tSwitch);
    NearestMonotone(t, tSwitch, tEnd);
    NearestMonotone(t, tSteady, tEnd);
    if p.durationFast >= 0.0 {
      NearestMonotone(t, tSwitch, tFast);
    }
    if p.durationFast <= P {
      NearestMonotone(t, tFast, tEnd);
    }
  }

  /** A response holds the samples `[i_s, i_e)` of the recording: input and
      output unchanged, time shifted so that the switch instant is 0, all three
      of one length; crossed indices give empty signals. */
  lemma ResponseSignals(t: seq<real>, u: seq<real>, y: seq<real>, tSwitch: real, ix: Indices, counter: int)
    requires |u| == |t| && |y| == |t| && IndicesWithin(ix, |t|) && WindowsHold(ix)
    ensures var r := ResponseFor(t, u, y, tSwitch, ix, counter);
      && |r.u| == |r.t| && |r.y| == |r.t|
      && (ix.iS <= ix.iE ==>
            && |r.t| == ix.iE - ix.iS
            && r.u == u[ix.iS..ix.iE] && r.y == y[ix.iS..ix.iE]
            && forall j :: 0 <= j < |r.t| ==> r.t[j] == t[ix.iS + j] - tSwitch)
      && (ix.iE < ix.iS ==> r.t == [] && r.u == [] && r.y == [])
      && r.iSwitch == ix.iSwitch - ix.iS && r.iFast == ix.iFast - ix.iS
      && r.idx == counter
  {
    PySlice.SliceInRange(t, ix.iS, ix.iE);
    PySlice.SliceInRange(u, ix.iS, ix.iE);
    PySlice.SliceInRange(y, ix.iS, ix.iE);
  }

  /** Indices in time order, with a sample before the switch, give local
      indices with `0 < i_switch <= i_fast <= |t|`. */
  lemma ResponseLocalIndices(t: seq<real>, u: seq<real>, y: seq<real>, tSwitch: real, ix: Indices, counter: int)
    requires |u| == |t| && |y| == |t| && IndicesWithin(ix, |t|) && WindowsHold(ix)
    requires ix.iSwitch <= ix.iFast <= ix.iE
    ensures var r := ResponseFor(t, u, y, tSwitch, ix, counter);
      0 < r.iSwitch <= r.iFast <= |r.t|
  {
    ResponseSignals(t, u, y, tSwitch, ix, counter);
  }

  /** When the switch index is the first sample nearest the switch instant, the
      local switch index picks a re-based sample closest to time 0, the first
      such: no sample of the response lies nearer the switch. */
  lemma ResponseSwitchNearestZero(t: seq<real>, u: seq<real>, y: seq<real>, tSwitch: real, ix: Indices, counter: int)
    requires |u| == |t| && |y| == |t| && IndicesWithin(ix, |t|) && WindowsHold(ix)
    requires IsFirstNearest(t, tSwitch, ix.iSwitch)
    requires ix.iSwitch < ix.iE
    ensures var r := ResponseFor(t, u, y, tSwitch, ix, counter);
      && 0 <= r.iSwitch < |r.t|
      && (forall j :: 0 <= j < |r.t| ==> Abs(r.t[r.iSwitch]) <= Abs(r.t[j]))
      && (forall j :: 0 <= j < r.iSwitch ==> Abs(r.t[r.iSwitch]) < Abs(r.t[j]))
  {
    var r := ResponseFor(t, u, y, tSwitch, ix, counter);
    assert |r.t| == ix.iE - ix.iS && r.iSwitch == ix.iSwitch - ix.iS
        && forall j :: 0 <= j < |r.t| ==> r.t[j] == t[ix.iS + j] - tSwitch by {
      ResponseSignals(t, u, y, tSwitch, ix, counter);
    }
    RebasedNearestZero(t, r.t, tSwitch, ix.iS, ix.iSwitch, r.iSwitch);
  }

  /** Re-basing a window `t[lo..lo + |rt|]` at `tSwitch` carries the first
      closest sample to `tSwitch` over to the first sample closest to 0. */
  lemma RebasedNearestZero(t: seq<real>, rt: seq<real>, tSwitch: real, lo: nat, i: nat, k: int)
    requires IsFirstNearest(t, tSwitch, i)
    requires lo <= i < lo + |rt| <= |t| && k == i - lo
    requires forall j :: 0 <= j < |rt| ==> rt[j] == t[lo + j] - tSwitch
    ensures 0 <= k < |rt|
    ensures forall j :: 0 <= j < |rt| ==> Abs(rt[k]) <= Abs(rt[j])
    ensures forall j :: 0 <= j < k ==> Abs(rt[k]) < Abs(rt[j])
  {
    assert rt[k] == t[i] - tSwitch;
    forall j | 0 <= j < |rt| ensures Abs(rt[k]) <= Abs(rt[j]) {
      assert rt[j] == t[lo + j] - tSwitch;
      assert Dist(t[lo + j], tSwitch) >= Dist(t[i], tSwitch);
    }
    forall j | 0 <= j < k ensures Abs(rt[k]) < Abs(rt[j]) {
      assert rt[j] == t[lo + j] - tSwitch;
      assert Dist(t[lo + j], tSwitch) > Dist(t[i], tSwitch);
    }
  }

  /** The steady-state values are averages: `u_initial`/`y_initial` over the
      pre-switch window `[i_s, i_switch)`, `u_final`/`y_final` over the steady
      window `[i_final, i_e)`. */
  lemma ResponseSteadyMeans(t: seq<real>, u: seq<real>, y: seq<real>, tSwitch: real, ix: Indices, counter: int)
    requires |u| == |t| && |y| == |t| && IndicesWithin(ix, |t|) && WindowsHold(ix)
    ensures var r := ResponseFor(t, u, y, tSwitch, ix, counter);
      && r.uInitial == Stats.Mean(u[ix.iS..ix.iSwitch])
      && r.yInitial == Stats.Mean(y[ix.iS..ix.iSwitch])
      && r.uFinal == Stats.Mean(u[ix.iFinal..ix.iE])
      && r.yFinal == Stats.Mean(y[ix.iFinal..ix.iE])
  {
    PySlice.SliceInRange(u, ix.iS, ix.iSwitch);
    PySlice.SliceInRange(y, ix.iS, ix.iSwitch);
    PySlice.SliceInRange(u, ix.iFinal, ix.iE);
    PySlice.SliceInRange(y, ix.iFinal, ix.iE);
  }

  /** For the k-th response on a non-decreasing time axis (positive period,
      non-negative extension and window, fast part at most one period long):
      `0 < i_switch <= i_fast <= |t|` locally, and, when the switch sample lies
      inside the response (`i_switch < i_e`, locally `i_switch < |t|`), the local
      switch index is the sample closest to time 0. */
  lemma StepAtWellFormed(t: seq<real>, u: seq<real>, y: seq<real>, p: SplitParams, k: nat)
    requires |t| > 0 && |u| == |t| && |y| == |t| && NonDecreasing(t)
    requires WindowsNonEmpty(t, p, k)
    requires p.periodSwitch > 0.0
    requires p.relativeStartExtension >= 0.0 && p.steadyEndWindow >= 0.0
    requires 0.0 <= p.durationFast <= p.periodSwitch
    ensures var r := StepAt(t, u, y, p, k);
      && 0 < r.iSwitch <= r.iFast <= |r.t|
      && (r.iSwitch < |r.t| ==> forall j :: 0 <= j < |r.t| ==> Abs(r.t[r.iSwitch]) <= Abs(r.t[j]))
  {
    var tSwitch := SwitchTime(p.periodSwitch, k);
    var ix := IndicesAt(t, p, k);
    IndicesOrdered(t, p, tSwitch);
    ResponseLocalIndices(t, u, y, tSwitch, ix, k);
    ResponseSignals(t, u, y, tSwitch, ix, k);
    if ix.iSwitch < ix.iE {
      NearestIsFirst(t, tSwitch);
      ResponseSwitchNearestZero(t, u, y, tSwitch, ix, k);
    }
  }

  /** The first `k` responses the loop emits, in order: the j-th is the one
      cut at the j-th switch instant. */
  function StepsUpTo(t: seq<real>, u: seq<real>, y: seq<real>, p: SplitParams, k: nat): (r: seq<StepData>)
    requires |t| > 0 && |u| == |t| && |y| == |t|
    requires forall j: nat :: j < k ==> WindowsNonEmpty(t, p, j)
    ensures |r| == k
  {
    seq(k, Cut(t, u, y, p))
  }

  /** The response cut at the j-th switch, as a function of `j`. */
  function Cut(t: seq<real>, u: seq<real>, y: seq<real>, p: SplitParams): int --> StepData
  {
    j requires |t| > 0 && |u| == |t| && |y| == |t| && 0 <= j && WindowsNonEmpty(t, p, j) => StepAt(t, u, y, p, j)
  }

  /** Building one more element extends a sequence by it. */
  lemma SeqSnoc<T>(f: int --> T, k: nat)
    requires forall i :: 0 <= i <= k ==> f.requires(i)
    ensures seq(k + 1, f) == seq(k, f) + [f(k)]
  {
    var prev := seq(k, f);
    var next := seq(k + 1, f);
    assert forall j :: 0 <= j < k ==> next[j] == f(j) == prev[j];
  }

  /** One more response extends the list by the one cut at the next switch. */
  lemma StepsUpToNext(t: seq<real>, u: seq<real>, y: seq<real>, p: SplitParams, k: nat)
    requires |t| > 0 && |u| == |t| && |y| == |t|
    requires forall j: nat :: j <= k ==> WindowsNonEmpty(t, p, j)
    ensures StepsUpTo(t, u, y, p, k + 1) == StepsUpTo(t, u, y, p, k) + [StepAt(t, u, y, p, k)]
  {
    SeqSnoc(Cut(t, u, y, p), k);
  }

  /** One iteration of the loop: the response cut at the current switch
      instant is the next one of `StepsUpTo`. */
  lemma SwitchStep(t: seq<real>, u: seq<real>, y: seq<real>, p: SplitParams, counter: nat, tSwitch: real)
    requires |t| > 0 && |u| == |t| && |y| == |t|
    requires forall i: nat :: i <= counter ==> WindowsNonEmpty(t, p, i)
    requires tSwitch == SwitchTime(p.periodSwitch, counter)
    ensures WindowsHold(IndicesFor(t, p, tSwitch))
    ensures StepsUpTo(t, u, y, p, counter + 1)
         == StepsUpTo(t, u, y, p, counter) + [ResponseFor(t, u, y, tSwitch, IndicesFor(t, p, tSwitch), counter)]
  {
    assert WindowsNonEmpty(t, p, counter);
    StepsUpToNext(t, u, y, p, counter);
  }

  /** The body of the loop: look up the indices around the switch instant and
      append the response cut there, which extends the first `counter`
      responses by the next one. */
  method EmitResponse(t: seq<real>, u: seq<real>, y: seq<real>, p: SplitParams,
                      steps: seq<StepData>, counter: nat, tSwitch: real) returns (next: seq<StepData>)
    requires |t| > 0 && |u| == |t| && |y| == |t|
    requires forall i: nat :: i <= counter ==> WindowsNonEmpty(t, p, i)
    requires tSwitch == SwitchTime(p.periodSwitch, counter)
    requires steps == StepsUpTo(t, u, y, p, counter)
    ensures next == StepsUpTo(t, u, y, p, counter + 1)
  {
    SwitchStep(t, u, y, p, counter, tSwitch);
    var ix := IndicesFor(t, p, tSwitch);
    next := steps + [ResponseFor(t, u, y, tSwitch, ix, counter)];
  }

  /** The loop of `split_signal`: after it, `counter` responses have been
      emitted, the ones the count predicts. */
  method SwitchLoop(t: seq<real>, u: seq<real>, y: seq<real>, p: SplitParams) returns (steps: seq<StepData>, counter: nat)
    requires |t| > 0 && |u| == |t| && |y| == |t|
    requires LoopTerminates(t[|t| - 1], p.periodSwitch)
    requires forall k: nat :: k < EmitCount(t[|t| - 1], p.periodSwitch) ==> WindowsNonEmpty(t, p, k)
    ensures counter == EmitCount(t[|t| - 1], p.periodSwitch)
    ensures steps == StepsUpTo(t, u, y, p, counter)
  {
    steps := [];
    counter := 0;
    var tFinal := t[|t| - 1];
    var tSwitch := p.periodSwitch;
    ghost var n := EmitCount(tFinal, p.periodSwitch);
    while tSwitch < tFinal - p.periodSwitch
      invariant counter <= n
      invariant tSwitch == SwitchTime(p.periodSwitch, counter)
      invariant steps == StepsUpTo(t, u, y, p, counter)
      decreases n - counter
    {
      EmitCountAt(tFinal, p.periodSwitch, counter);
      steps := EmitResponse(t, u, y, p, steps, counter, tSwitch);
      SwitchTimeNext(p.periodSwitch, counter);
      tSwitch := tSwitch + p.periodSwitch;
      counter := counter + 1;
    }
    if p.periodSwitch > 0.0 {
      EmitCountAt(tFinal, p.periodSwitch, counter);
    }
  }

  /** `split_signal`: walk the switch instants `period_switch, 2*period_switch, ...`
      while they lie before `t_final - period_switch`, emitting one response each. */
  method Split(t: seq<real>, u: seq<real>, y: seq<real>, p: SplitParams) returns (steps: seq<StepData>)
    requires |t| > 0 && |u| == |t| && |y| == |t|
    requires LoopTerminates(t[|t| - 1], p.periodSwitch)
    requires forall k: nat :: k < EmitCount(t[|t| - 1], p.periodSwitch) ==> WindowsNonEmpty(t, p, k)
    ensures |steps| == EmitCount(t[|t| - 1], p.periodSwitch)
    ensures p.periodSwitch > 0.0 ==>
      forall k: nat :: k < |steps| <==> SwitchTime(p.periodSwitch, k) < t[|t| - 1] - p.periodSwitch
    ensures forall k :: 0 <= k < |steps| ==> steps[k] == StepAt(t, u, y, p, k)
    ensures forall k :: 0 <= k < |steps| ==> steps[k].idx == k
  {
    var tFinal := t[|t| - 1];
    var counter;
    steps, counter := SwitchLoop(t, u, y, p);
    if p.periodSwitch > 0.0 {
      EmitCountExact(tFinal, p.periodSwitch);
    }
  }
}

=== FILE: stats.dfy ===
/** The numpy reductions the identifiers use: `np.mean`, `np.mean(np.abs(a - b))`
    and `np.median`, over exact reals. */
module Stats {
  import opened Common

  function Sum(s: seq<real>): real
  {
    if |s| == 0 then 0.0 else Sum(s[..|s| - 1]) + s[|s| - 1]
  }

  /** `np.mean` of a non-empty array. */
  function Mean(s: seq<real>): (m: real)
    requires |s| > 0
    ensures m * (|s| as real) == Sum(s)
  {
    var n := |s| as real;
    assert Sum(s) / n * n == Sum(s);
    Sum(s) / n
  }

  lemma {:induction false} SumBounds(s: seq<real>, lo: real, hi: real)
    requires forall i :: 0 <= i < |s| ==> lo <= s[i] <= hi
    ensures (|s| as real) * lo <= Sum(s) <= (|s| as real) * hi
  {
    if |s| > 0 {
      var init := s[..|s| - 1];
      assert forall i :: 0 <= i < |init| ==> init[i] == s[i];
      SumBounds(init, lo, hi);
      assert (|s| as real) * lo == (|init| as real) * lo + lo;
      assert (|s| as real) * hi == (|init| as real) * hi + hi;
    }
  }

  /** A mean lies within any interval that holds all of its samples. */
  lemma MeanBounds(s: seq<real>, lo: real, hi: real)
    requires |s| > 0
    requires forall i :: 0 <= i < |s| ==> lo <= s[i] <= hi
    ensures lo <= Mean(s) <= hi
  {
    SumBounds(s, lo, hi);
  }

  /** A sum of non-negative terms is non-negative, and zero exactly when every term is. */
  lemma {:induction false} SumNonNegative(s: seq<real>)
    requires forall i :: 0 <= i < |s| ==> 0.0 <= s[i]
    ensures 0.0 <= Sum(s)
    ensures Sum(s) == 0.0 <==> forall i :: 0 <= i < |s| ==> s[i] == 0.0
  {
    if |s| > 0 {
      var init := s[..|s| - 1];
      assert forall i :: 0 <= i < |init| ==> init[i] == s[i];
      SumNonNegative(init);
      if Sum(s) == 0.0 {
        forall i | 0 <= i < |s| ensures s[i] == 0.0 {
          if i < |init| {
            assert init[i] == s[i];
          }
        }
      }
    }
  }

  function AbsDiff(a: seq<real>, b: seq<real>): seq<real>
    requires |a| == |b|
  {
    seq(|a|, i requires 0 <= i < |a| => Abs(a[i] - b[i]))
  }

  /** `np.mean(np.abs(a - b))`, the cost both dynamic fits minimise; `None` is
      the NaN numpy returns for empty arrays. The cost is non-negative and is
      zero exactly when the two signals agree sample by sample. */
  function MeanAbsDev(a: seq<real>, b: seq<real>): (r: Option<real>)
    requires |a| == |b|
    ensures r.Some? <==> |a| > 0
    ensures r.Some? ==> 0.0 <= r.value
    ensures r.Some? ==> (r.value == 0.0 <==> a == b)
  {
    if |a| == 0 then None
    else
      var d := AbsDiff(a, b);
      SumNonNegative(d);
      assert Sum(d) == 0.0 <==> a == b by {
        if a == b {
          assert forall i :: 0 <= i < |d| ==> d[i] == 0.0;
        }
        if Sum(d) == 0.0 {
          assert forall i :: 0 <= i < |a| ==> a[i] == b[i] by {
            forall i | 0 <= i < |a| ensures a[i] == b[i] {
              assert d[i] == 0.0;
            }
          }
        }
      }
      Some(Mean(d))
  }

  predicate Sorted(s: seq<real>)
  {
    forall i, j :: 0 <= i < j < |s| ==> s[i] <= s[j]
  }

  /** Every element of a sorted sequence's tail is at least its head. */
  lemma HeadBelowTail(s: seq<real>, v: real)
    requires Sorted(s) && |s| > 0
    requires v in multiset(s[1..])
    ensures s[0] <= v
  {
    var j :| 0 <= j < |s[1..]| && s[1..][j] == v;
    assert s[j + 1] == v;
  }

  function Insert(x: real, s: seq<real>): (r: seq<real>)
    requires Sorted(s)
    ensures |r| == |s| + 1
    ensures multiset(r) == multiset(s) + multiset{x}
    ensures Sorted(r)
  {
    if |s| == 0 then [x]
    else if x <= s[0] then [x] + s
    else
      var rest := Insert(x, s[1..]);
      assert s == [s[0]] + s[1..];
      InsertKeepsHead(x, s, rest);
      [s[0]] + rest
  }

  lemma InsertKeepsHead(x: real, s: seq<real>, rest: seq<real>)
    requires Sorted(s) && |s| > 0 && s[0] < x
    requires multiset(rest) == multiset(s[1..]) + multiset{x}
    requires Sorted(rest)
    ensures Sorted([s[0]] + rest)
  {
    forall i | 0 <= i < |rest| ensures s[0] <= rest[i] {
      assert rest[i] in multiset(rest);
      if rest[i] != x {
        HeadBelowTail(s, rest[i]);
      }
    }
  }

  /** Insertion sort: a sorted permutation of the input. */
  function Sort(s: seq<real>): (r: seq<real>)
    ensures |r| == |s|
    ensures multiset(r) == multiset(s)
    ensures Sorted(r)
  {
    if |s| == 0 then []
    else
      assert s == [s[0]] + s[1..];
      Insert(s[0], Sort(s[1..]))
  }

  /** Two sorted arrangements of one non-empty multiset start with the same
      element, its least. */
  lemma SortedHeadsAgree(a: seq<real>, b: seq<real>)
    requires Sorted(a) && Sorted(b) && |a| > 0 && |b| > 0
    requires multiset(a) == multiset(b)
    ensures a[0] == b[0]
  {
    assert a[0] in multiset(b);
    var j :| 0 <= j < |b| && b[j] == a[0];
    assert b[0] in multiset(a);
    var i :| 0 <= i < |a| && a[i] == b[0];
  }

  /** There is only one sorted arrangement of a multiset. */
  lemma {:induction false} SortedUnique(a: seq<real>, b: seq<real>)
    requires Sorted(a) && Sorted(b)
    requires multiset(a) == multiset(b)
    ensures a == b
    decreases |a|
  {
    assert |a| == |multiset(a)| == |multiset(b)| == |b|;
    if |a| > 0 {
      SortedHeadsAgree(a, b);
      assert a == [a[0]] + a[1..];
      assert b == [b[0]] + b[1..];
      assert multiset(a[1..]) == multiset(a) - multiset{a[0]};
      assert multiset(b[1..]) == multiset(b) - multiset{b[0]};
      SortedUnique(a[1..], b[1..]);
    }
  }

  /** The middle of a sorted sample: its middle element, or the mean of the
      two middle ones when their number is even. */
  function Middle(q: seq<real>): (m: real)
    requires |q| > 0
    ensures Sorted(q) ==> q[0] <= m <= q[|q| - 1]
  {
    var n := |q|;
    if n % 2 == 1 then q[n / 2] else (q[n / 2 - 1] + q[n / 2]) / 2.0
  }

  /** `np.median`: the middle of the sorted samples; `None` is the NaN of an
      empty array. */
  function Median(s: seq<real>): (r: Option<real>)
    ensures r.Some? <==> |s| > 0
  {
    if |s| == 0 then None else Some(Middle(Sort(s)))
  }

  /** The median does not depend on the order of the samples. */
  lemma MedianPermutationInvariant(a: seq<real>, b: seq<real>)
    requires multiset(a) == multiset(b)
    ensures Median(a) == Median(b)
  {
    SortedUnique(Sort(a), Sort(b));
  }

  /** The median lies within any interval that holds all of the samples. */
  lemma MedianBounds(s: seq<real>, lo: real, hi: real)
    requires |s| > 0
    requires forall i :: 0 <= i < |s| ==> lo <= s[i] <= hi
    ensures lo <= Median(s).value <= hi
  {
    var q := Sort(s);
    forall k | 0 <= k < |q| ensures lo <= q[k] <= hi {
      assert q[k] in multiset(s);
      var i :| 0 <= i < |s| && s[i] == q[k];
    }
  }

  /** On an already sorted sample the median is read off the middle directly. */
  lemma MedianOfSorted(s: seq<real>)
    requires Sorted(s) && |s| > 0
    ensures Median(s) == Some(Middle(s))
  {
    SortedUnique(Sort(s), s);
  }
}

=== FILE: step_response.dfy ===
/** One step response cut out of a recording, its two derived views, and the
    object that computes each view once and then hands back the cached copy. */
module StepResponses {
  import opened Common
  import PySlice

  /** Time, input and output over some sub-interval of a recording. */
  datatype SignalsHolder = SignalsHolder(t: seq<real>, u: seq<real>, y: seq<real>)

  /** The ten values a step response is built from. Local time `t` is re-based
      so that the switch instant is 0; `iSwitch` and `iFast` are local indices
      and `idx` is the response's position in the recording. */
  datatype StepData = StepData(
    t: seq<real>, u: seq<real>, y: seq<real>,
    uInitial: real, uFinal: real, yInitial: real, yFinal: real,
    iSwitch: int, iFast: int, idx: int)

  /** The three signals of a response line up sample for sample. */
  predicate Aligned(s: StepData)
  {
    |s.u| == |s.t| && |s.y| == |s.t|
  }

  /** `t[i_switch:]`, `u[i_switch:]`, `y[i_switch:]`. */
  function AfterView(s: StepData): (h: SignalsHolder)
    ensures |h.t| <= |s.t|
    ensures Aligned(s) ==> HolderAligned(h)
  {
    SignalsHolder(PySlice.SliceFrom(s.t, s.iSwitch), PySlice.SliceFrom(s.u, s.iSwitch),
                  PySlice.SliceFrom(s.y, s.iSwitch))
  }

  /** `t[i_switch:i_fast]`, `u[i_switch:i_fast]`, `y[i_switch:i_fast]`. */
  function FastView(s: StepData): (h: SignalsHolder)
    ensures |h.t| <= |AfterView(s).t|
    ensures Aligned(s) ==> HolderAligned(h)
  {
    SignalsHolder(PySlice.Slice(s.t, s.iSwitch, s.iFast), PySlice.Slice(s.u, s.iSwitch, s.iFast),
                  PySlice.Slice(s.y, s.iSwitch, s.iFast))
  }

  predicate HolderAligned(h: SignalsHolder)
  {
    |h.u| == |h.t| && |h.y| == |h.t|
  }

  /** With indices inside the response, the views are exactly the sub-sequences
      from the switch to the end and from the switch to the end of the fast part. */
  lemma ViewsInRange(s: StepData)
    requires Aligned(s)
    requires 0 <= s.iSwitch <= s.iFast <= |s.t|
    ensures AfterView(s) == SignalsHolder(s.t[s.iSwitch..], s.u[s.iSwitch..], s.y[s.iSwitch..])
    ensures FastView(s) == SignalsHolder(s.t[s.iSwitch..s.iFast], s.u[s.iSwitch..s.iFast], s.y[s.iSwitch..s.iFast])
    ensures |FastView(s).t| == s.iFast - s.iSwitch
    ensures |AfterView(s).t| == |s.t| - s.iSwitch
  {
    PySlice.SliceInRange(s.t, s.iSwitch, s.iFast);
    PySlice.SliceInRange(s.u, s.iSwitch, s.iFast);
    PySlice.SliceInRange(s.y, s.iSwitch, s.iFast);
  }

  /** Whatever the indices, each fast-view signal is a prefix of the matching
      after-view signal, and aligned responses give aligned views. */
  lemma FastViewIsPrefixOfAfterView(s: StepData)
    ensures FastView(s).t <= AfterView(s).t
    ensures FastView(s).u <= AfterView(s).u
    ensures FastView(s).y <= AfterView(s).y
    ensures Aligned(s) ==> HolderAligned(FastView(s)) && HolderAligned(AfterView(s))
  {
    PySlice.SliceIsPrefixOfSliceFrom(s.t, s.iSwitch, s.iFast);
    PySlice.SliceIsPrefixOfSliceFrom(s.u, s.iSwitch, s.iFast);
    PySlice.SliceIsPrefixOfSliceFrom(s.y, s.iSwitch, s.iFast);
    if Aligned(s) {
      PySlice.SliceSameLength(s.t, s.u, s.iSwitch, s.iFast);
      PySlice.SliceSameLength(s.t, s.y, s.iSwitch, s.iFast);
    }
  }

  /** The step response object: ten fixed values and two caches, one per view,
      each filled on first request and returned unchanged afterwards. */
  class StepResponse {
    const t: seq<real>
    const u: seq<real>
    const y: seq<real>
    const uInitial: real
    const uFinal: real
    const yInitial: real
    const yFinal: real
    const iSwitch: int
    const iFast: int
    const idx: int
    var afterHolder: Option<SignalsHolder>
    var fastHolder: Option<SignalsHolder>

    function Data(): StepData
    {
      StepData(t, u, y, uInitial, uFinal, yInitial, yFinal, iSwitch, iFast, idx)
    }

    /** A filled cache holds the view it stands for. */
    ghost predicate Valid()
      reads this
    {
      && (afterHolder.Some? ==> afterHolder.value == AfterView(Data()))
      && (fastHolder.Some? ==> fastHolder.value == FastView(Data()))
    }

    constructor Init(t: seq<real>, u: seq<real>, y: seq<real>,
                     uInitial: real, uFinal: real, yInitial: real, yFinal: real,
                     iSwitch: int, iFast: int, idx: int)
      ensures Data() == StepData(t, u, y, uInitial, uFinal, yInitial, yFinal, iSwitch, iFast, idx)
      ensures afterHolder == None && fastHolder == None
      ensures Valid()
    {
      this.t := t;
      this.u := u;
      this.y := y;
      this.uInitial := uInitial;
      this.uFinal := uFinal;
      this.yInitial := yInitial;
      this.yFinal := yFinal;
      this.iSwitch := iSwitch;
      this.iFast := iFast;
      this.idx := idx;
      afterHolder := None;
      fastHolder := None;
    }

    method GetAfter() returns (h: SignalsHolder)
      requires Valid()
      modifies this`afterHolder
      ensures Valid()
      ensures h == AfterView(Data())
      ensures afterHolder == Some(h)
      ensures old(afterHolder).Some? ==> h == old(afterHolder).value
      ensures fastHolder == old(fastHolder)
    {
      if afterHolder.None? {
        afterHolder := Some(SignalsHolder(PySlice.SliceFrom(t, iSwitch), PySlice.SliceFrom(u, iSwitch),
                                          PySlice.SliceFrom(y, iSwitch)));
      }
      h := afterHolder.value;
    }

    method GetFast() returns (h: SignalsHolder)
      requires Valid()
      modifies this`fastHolder
      ensures Valid()
      ensures h == FastView(Data())
      ensures fastHolder == Some(h)
      ensures old(fastHolder).Some? ==> h == old(fastHolder).value
      ensures afterHolder == old(afterHolder)
    {
      if fastHolder.None? {
        fastHolder := Some(SignalsHolder(PySlice.Slice(t, iSwitch, iFast), PySlice.Slice(u, iSwitch, iFast),
                                         PySlice.Slice(y, iSwitch, iFast)));
      }
      h := fastHolder.value;
    }
  }

  /** Asking for a view twice gives the same holder, and the second request
      leaves the cache as the first one left it. */
  method RepeatedViews(r: StepResponse) returns (a1: SignalsHolder, a2: SignalsHolder, f1: SignalsHolder, f2: SignalsHolder)
    requires r.Valid()
    modifies r
    ensures a1 == a2 && f1 == f2
    ensures r.afterHolder == Some(a1) && r.fastHolder == Some(f1)
    ensures f1.t <= a1.t && f1.u <= a1.u && f1.y <= a1.y
  {
    a1 := r.GetAfter();
    f1 := r.GetFast();
    a2 := r.GetAfter();
    f2 := r.GetFast();
    FastViewIsPrefixOfAfterView(r.Data());
  }
}
